=== FILE: README.md ===
# Recirculate storefront — a Dafny model of its client-side logic

This project models the browser side of the Recirculate clothing store, a
Next.js application. It covers:

- the shopping cart store (`CartContext`): add, remove, clear, totals, and persistence to `localStorage`;
- the checkout saga (`checkout/page.tsx`), which creates an address, a bill, an order and one order detail per cart line;
- the small decisions made by the pages and components around them:
  - order status labels, colours, sorting and the cancel button;
  - placeholder images;
  - the theme provider;
  - the shop's category filter;
  - the admin product list, its gate and its new-product form;
  - the review section, card and form.

Each backend call, `localStorage` and the authentication context
become parameters. Each React handler becomes a pure function from the
state it reads to the state it leaves behind, together with the request it
issues.

Modules, in dependency order:

- `Wrappers` — `Option`.
- `Js` — the JavaScript semantics the pages rely on:
  - truncating `%`;
  - ASCII `toLowerCase`;
  - `String.prototype.includes`;
  - truthiness of ids and strings;
  - `a || b` on strings.
- `Seqs` — `Array.prototype.filter` and the subsequence relation.
- `Types` — the entities of `src/types/index.ts` and the two enums with their numeric codes.
- `Cart`, `Checkout`, `OrdersPage`, `ProductService`, `ProductCard`, `Theme`, `Shop`, `AdminProducts`, `AdminLayout`, `NewProduct`, `ReviewsSection`, `ReviewCard`, `ReviewForm` — one per source file.

`handleSubmit` (src/app/checkout/page.tsx:38-104) does not check for an
empty cart; only the render guard at page.tsx:29-31 sends an empty cart to
`/cart`. So `Checkout.HandleSubmit` accepts an empty cart: it creates an
order with total 0 and no details. The same guard also fires right after a
successful purchase. Clearing the cart re-renders the checkout page with an
empty cart, so both `/profile` (the handler) and `/cart` (the guard) are
requested (`Checkout.SuccessRerenderAsksForCart`).

## Model

| member | source | states |
|---|---|---|
| Cart.AddToCart | src/context/CartContext.tsx:42-54 | Adding a product already in the cart keeps the length and adds the quantity to that line only, keeping the line's own product snapshot. Adding a new product appends exactly one line. Afterwards the product is present, no other id appears or disappears, and unique ids stay unique. |
| Cart.RemoveFromCart | src/context/CartContext.tsx:56-58 | The result holds exactly the lines whose product id differs from the argument, each with its original multiplicity and in its original order. The id is gone, and every other id is present iff it was before. Removing an absent id changes nothing. Unique ids stay unique. |
| Cart.ClearCart | src/context/CartContext.tsx:60-62 | The cleared cart is empty, with count 0 and total 0. |
| Cart.Total | src/context/CartContext.tsx:64 | `total`, the left fold of price × quantity, equals the same sum folded from the front. |
| Cart.CartCount | src/context/CartContext.tsx:65 | `cartCount`, the left fold of quantities, equals the same sum folded from the front. |
| Cart.FoldsAgree | src/context/CartContext.tsx:64-65 | The left fold `reduce` computes and the right fold agree on every cart and every line weight. |
| Cart.SumByCons | src/context/CartContext.tsx:64-65 | A left-fold sum is the first line's weight plus the sum over the remaining lines. |
| Cart.SumByAppend | src/context/CartContext.tsx:64-65 | Left-fold sums (total, count) are additive over concatenation. |
| Cart.SumByUpdate | src/context/CartContext.tsx:64-65 | Changing one line changes a sum by exactly that line's difference. |
| Cart.QuantityOfLine | src/context/CartContext.tsx:44-52 | In a cart with unique ids, the quantity held for a line's product is that line's quantity. |
| Cart.SubsequenceUnique | src/context/CartContext.tsx:57 | Filtering a cart with unique ids leaves its ids unique. |
| Cart.AddToCartQuantities | src/context/CartContext.tsx:42-54 | In a cart with unique ids, after adding q units of product p, the quantity held for p rises by q, and the quantity held for every other id is unchanged. |
| Cart.AddToCartSums | src/context/CartContext.tsx:42-54 | In a cart with unique ids, adding a new product raises every sum by the new line's weight. Merging into line k changes every sum by line k's difference only. |
| Cart.AddToCartCount | src/context/CartContext.tsx:42-65 | In a cart with unique ids, `cartCount` rises by exactly the quantity added. |
| Cart.AddToCartTotal | src/context/CartContext.tsx:42-64 | In a cart with unique ids, a new product raises `total` by price × quantity. An existing line raises it by the price of the snapshot already in the cart × quantity. |
| Cart.FilterOtherThanSums | src/context/CartContext.tsx:57-65 | A sum over the cart splits into the kept lines plus the removed id's lines; the kept lines contribute nothing for that id. |
| Cart.RemoveFromCartSums | src/context/CartContext.tsx:56-65 | Removing an id lowers each sum by exactly that id's contribution. |
| Cart.RemoveFromCartQuantities | src/context/CartContext.tsx:56-58 | After removal the quantity held for the id is 0, and for every other id it is unchanged. |
| Cart.RemoveFromCartTotals | src/context/CartContext.tsx:56-65 | `cartCount` falls by the removed id's quantity and `total` by its amount. |
| Cart.ApplyAll | src/context/CartContext.tsx:42-62 | Any sequence of add/remove/clear actions preserves unique product ids. |
| Cart.Mount | src/context/CartContext.tsx:23-40 | On mount, a saved parsable cart is restored; a missing or corrupt entry yields the empty cart. Either way the stored entry then matches the cart. |
| Cart.Perform | src/context/CartContext.tsx:37-62 | After every action the stored entry matches the cart, and unique ids are preserved. |
| Cart.ReloadRestores | src/context/CartContext.tsx:23-40 | Reloading after any action restores exactly the cart that action produced (persist/restore round trip). |
| Checkout.RenderGuard | src/app/checkout/page.tsx:24-32 | In the browser, an unauthenticated visitor is sent to the login page with the checkout as redirect, and an authenticated one with an empty cart is sent to the cart. The page renders iff neither holds, or when not in the browser. |
| Checkout.ErrorMessage | src/app/checkout/page.tsx:96-100 | The message shown is the first non-empty value of: the response's `detail`, the response's `message`, the error's `message`, the generic text. It is never empty. |
| Checkout.FirstDetailFailure | src/app/checkout/page.tsx:83-89 | It returns nothing iff every detail request in the range resolved. Otherwise it returns a failing index, and all lines before it succeeded. |
| Checkout.DetailRequests | src/app/checkout/page.tsx:83-87 | One detail request per cart line, in cart order, carrying that line's quantity and product id and the order id. |
| Checkout.HandleSubmit | src/app/checkout/page.tsx:38-104 | `loading` is false once the handler ends. A submission either completes, with no error, an empty cart and navigation to `/profile`, or fails, with a non-empty error, the cart kept and no navigation. |
| Checkout.Press | src/app/checkout/page.tsx:146-148 | A press while `loading` does nothing, because the button is disabled. Otherwise the press runs the handler, which leaves `loading` false. |
| Checkout.SuccessRerenderAsksForCart | src/app/checkout/page.tsx:29-94 | After a successful purchase the handler requests `/profile`, and the next browser render of the page, now with an empty cart, has its guard request `/cart`. |
| Checkout.SubmitClearsOnlyOnSuccess | src/app/checkout/page.tsx:38-104 | The error is empty iff a client id exists and every step (address, bill with id, order with id, every detail) succeeds. Then the handler clears the cart and requests the profile page. Otherwise the cart is untouched and the handler requests no navigation. |
| Checkout.SubmitNeedsClient | src/app/checkout/page.tsx:44 | Without a user or a truthy client id, nothing is sent, the cart is kept and the reconnect message is shown. |
| Checkout.SubmitFollowsPlan | src/app/checkout/page.tsx:49-89 | Requests go out in the order address, bill, order, details. A failing step stops the saga: exactly 1, 2 or 3 requests are issued when the address, the bill or the order fails, and 3 + lines otherwise. |
| Checkout.SubmitPayloads | src/app/checkout/page.tsx:49-78 | The address and the bill carry the client id, and the bill carries the cart total. The order is issued only after a bill with an id; it carries the total and is a home delivery (3), pending (1), against that bill. |
| Checkout.SubmitDetails | src/app/checkout/page.tsx:80-89 | Detail requests are issued only after an order with an id, and the i-th carries line i's quantity and product and the order's id. |
| Checkout.SubmitErrorMessage | src/app/checkout/page.tsx:44-100 | The error shown comes from the first failing step: a rejected address, bill or order call's message, "Error al generar factura." / "Error al generar orden." for a missing id, or some failing detail's message. |
| Checkout.TwoLineExample | src/app/checkout/page.tsx:38-104 | A two-line cart (10×2 + 5×1) sends bill and order with total 25 and two details, then empties the cart. When the bill call rejects, only two requests are sent, the cart is kept and the error is "Network Error". |
| Types.DeliveryMethod.Code | src/types/index.ts:35-39 | DRIVE_THRU, ON_HAND and HOME_DELIVERY are coded 1, 2 and 3. |
| Types.Status.Code | src/types/index.ts:41-46 | PENDING, IN_PROGRESS, DELIVERED and CANCELED are coded 1, 2, 3 and 4. |
| Types.DeliveryFromCode | src/types/index.ts:35-39 | A delivery code decodes iff it is 1..3, and decoding inverts `Code`. |
| Types.StatusFromCode | src/types/index.ts:41-46 | A status code decodes iff it is 1..4, and decoding inverts `Code`. |
| Types.DeliveryRoundTrip | src/types/index.ts:35-39 | Encoding then decoding a delivery method gives it back, and codes are injective. |
| Types.StatusRoundTrip | src/types/index.ts:41-46 | Encoding then decoding a status gives it back, and codes are injective. |
| OrdersPage.StatusText | src/app/profile/orders/page.tsx:50-58 | Codes 1-4 read "Pendiente", "En Proceso", "Entregado", "Cancelado". The fallback "Desconocido" appears iff the code is not a status. |
| OrdersPage.StatusColor | src/app/profile/orders/page.tsx:60-68 | The grey fallback classes appear iff the code is not a status. |
| OrdersPage.StatusPresentationInjective | src/app/profile/orders/page.tsx:50-68 | Distinct statuses get distinct labels and distinct colours. |
| OrdersPage.Insert | src/app/profile/orders/page.tsx:30 | Inserting into a newest-first list keeps it newest-first and adds exactly the one order. |
| OrdersPage.SortNewestFirst | src/app/profile/orders/page.tsx:30 | The result is ordered by date, newest first, and is a permutation of the fetched orders. |
| OrdersPage.LoadEffect | src/app/profile/orders/page.tsx:16-37 | Nothing happens while authentication loads. Without a user the page goes to "/login". With a user, loading ends, and the orders become the fetched list sorted newest first only when the user has an id and the fetch succeeded. |
| OrdersPage.ShowsCancel | src/app/profile/orders/page.tsx:129 | The cancel button shows iff the order is pending. |
| ProductService.SelectedImages | src/services/productService.ts:11-41 | A falsy category (null or 0) or an unknown category uses the tops collection; categories 1-5 use their own. The collection has 4 photos for category 1/fallback and 3 for categories 2-5. |
| ProductService.PlaceholderImage | src/services/productService.ts:40-43 | For a non-negative index the photo is the selected collection's entry at `index mod length`. For a negative index a photo exists iff the length divides the index, and it is then the first photo (`images[-0]`). Any photo returned is the entry at the Euclidean `index mod length`. |
| ProductService.PlaceholderPeriodic | src/services/productService.ts:43 | For non-negative indices, the placeholder repeats with the collection's length as period. |
| ProductCard.ImageSrc | src/components/ProductCard.tsx:11-18 | A non-negative category picks entry `category mod 4`, a negative one falls back to the first; the result is always one of the four photos. |
| ProductCard.ImageSrcPeriodic | src/components/ProductCard.tsx:18 | Non-negative category ids four apart get the same photo. |
| ProductCard.ShowsOutOfStock | src/components/ProductCard.tsx:28 | The "Agotado" badge shows iff stock is 0. |
| Theme.Resolve | src/context/ThemeContext.tsx:49 | The page is dark iff the theme is "dark", or the theme is "system" and the system prefers dark; `Theme.StepConsistent` shows every event keeps the resolved theme and the dark class equal to this value once mounted. |
| Theme.Persisted | src/context/ThemeContext.tsx:30-38 | "system" removes the stored entry; any other theme is stored verbatim; `Theme.StepConsistent` shows storage equals this after every mounted event. |
| Theme.Initial | src/context/ThemeContext.tsx:16-18 | The provider starts on "system", resolved light, not mounted, with the dark class off. |
| Theme.RunEffects | src/context/ThemeContext.tsx:30-60 | Before mount the effects change nothing. After mount the stored entry and the resolved theme follow the chosen theme. |
| Theme.Mount | src/context/ThemeContext.tsx:21-27 | Mounting adopts a non-empty stored theme and keeps the current one otherwise. |
| Theme.SetTheme | src/context/ThemeContext.tsx:16-68 | Choosing a theme records it; before mount nothing is stored or applied. |
| Theme.SystemChange | src/context/ThemeContext.tsx:62-64 | A change of system preference re-resolves only when mounted on "system"; otherwise what is shown is untouched. |
| Theme.ExplicitThemeIgnoresSystem | src/context/ThemeContext.tsx:49-64 | A theme other than "system" resolves the same whatever the system prefers. |
| Theme.StepConsistent | src/context/ThemeContext.tsx:21-68 | Every event keeps the invariant: once mounted, the stored entry, the resolved theme and the dark class agree with the theme and the system preference. |
| Theme.Run | src/context/ThemeContext.tsx:21-68 | Any sequence of events keeps that invariant. Mounting is never undone, and storage is untouched while unmounted. |
| Theme.InitialConsistent | src/context/ThemeContext.tsx:16-18 | The initial state satisfies the invariant. |
| Shop.FilteredProducts | src/app/shop/page.tsx:34-36 | With no category (or 0) all products show. Otherwise exactly the products of that category show, each as many times as in the list and in list order. |
| Shop.ZeroCategoryShowsAll | src/app/shop/page.tsx:34 | Category 0 is falsy and shows the whole list, like no category. |
| AdminProducts.HandleDelete | src/app/admin/products/page.tsx:29-38 | A delete request is sent iff the admin confirms. The list loses exactly the products with that id only when the delete succeeds; every other product keeps its multiplicity and order. A failure alerts and keeps the list. |
| AdminProducts.SearchResults | src/app/admin/products/page.tsx:40-42 | A product is listed iff its lower-cased name contains the lower-cased term, with its multiplicity and in list order. |
| AdminProducts.EmptySearchShowsAll | src/app/admin/products/page.tsx:40-42 | An empty search term lists every product. |
| AdminProducts.SearchIgnoresCase | src/app/admin/products/page.tsx:41 | Terms that lower-case alike give the same results. |
| AdminProducts.SearchLowerCaseTerm | src/app/admin/products/page.tsx:41 | Searching for the lower-cased term gives the same results. |
| AdminLayout.Check | src/app/admin/layout.tsx:16-24 | While loading nothing changes. A missing or non-admin user is sent to "/". "admin@gmail.com" is authorized. Authorization is never withdrawn. |
| AdminLayout.ShowsChildren | src/app/admin/layout.tsx:26-40 | The admin pages render iff authentication has loaded and the gate is authorized. |
| AdminLayout.Run | src/app/admin/layout.tsx:14-24 | Over any sequence of renders, authorization persists and is only granted after a loaded render saw the admin. |
| AdminLayout.RunFromInitial | src/app/admin/layout.tsx:14-24 | From the initial state the gate is open iff some loaded render saw the admin. |
| AdminLayout.RunOpensAt | src/app/admin/layout.tsx:20-21 | A loaded render that sees the admin leaves the gate open at the end of the run. |
| NewProduct.HandleSubmit | src/app/admin/products/new/page.tsx:42-66 | A missing name, price, stock or category fails with the required-fields message and sends nothing. Otherwise the product is sent, with an empty image URL as undefined. The page navigates to the list iff creation succeeds, and a rejection shows its message or "Error al crear producto". Loading always ends. |
| ReviewsSection.HandleCreate | src/components/ReviewsSection.tsx:34-56 | Without a user nothing happens. Otherwise the review is sent with the product and the user's id. On success the created review, carrying the user's name, is prepended and the form closes, with nothing else changed; a failure alerts and changes nothing. |
| ReviewsSection.HandleUpdate | src/components/ReviewsSection.tsx:58-73 | Only an edited review is updated, keeping its product and author. Success closes the form and reloads; failure alerts and keeps the state. |
| ReviewsSection.OnSubmit | src/components/ReviewsSection.tsx:151 | The form submits an update iff a review is being edited, else a create. |
| ReviewsSection.HandleDelete | src/components/ReviewsSection.tsx:75-84 | A delete is sent iff confirmed. Success reloads the list; failure alerts and keeps it. |
| ReviewsSection.OpenEditForm | src/components/ReviewsSection.tsx:86-89 | Opening the editor shows the form on that review and keeps the list. |
| ReviewsSection.CloseForm | src/components/ReviewsSection.tsx:91-94 | Closing hides the form and clears the edited review. |
| ReviewsSection.AverageRating | src/components/ReviewsSection.tsx:97-99 | The average is 0 for no reviews; otherwise average × count equals the sum of ratings. |
| ReviewsSection.SumRatingsBounds | src/components/ReviewsSection.tsx:98 | Ratings within [lo, hi] sum to between lo × n and hi × n. |
| ReviewsSection.AverageRatingBounds | src/components/ReviewsSection.tsx:97-99 | With ratings from 1 to 5, the average of a non-empty list lies in [1, 5]. |
| ReviewCard.IsOwner | src/components/ReviewCard.tsx:14 | The viewer owns a review iff logged in with an id equal to the review's client id. |
| ReviewCard.ControlsOf | src/components/ReviewCard.tsx:58-73 | Edit and delete controls show iff the viewer owns the review, and they target that review and its id. |
| ReviewCard.Stars | src/components/ReviewCard.tsx:17-33 | Five stars; star i is filled iff i < rating. |
| ReviewCard.PrefixCount | src/components/ReviewCard.tsx:20-23 | A row whose first k stars are filled counts k filled stars. |
| ReviewCard.FilledStars | src/components/ReviewCard.tsx:17-33 | The card fills exactly the rating clamped to 0..5 stars. |
| ReviewCard.Initial | src/components/ReviewCard.tsx:40 | The avatar shows the first letter of a non-empty author name, else 'U'. |
| ReviewCard.DisplayName | src/components/ReviewCard.tsx:44 | The name shown is the non-empty author name, else "Usuario"; it is never empty. |
| ReviewCard.InitialOfDisplayName | src/components/ReviewCard.tsx:40-44 | The avatar letter is the first letter of the name shown. |
| ReviewForm.InitialFormShowsFive | src/components/ReviewForm.tsx:12-14 | The form starts valid, on rating 5 with no hover, so all five stars are lit. |
| ReviewForm.LoadInitialData | src/components/ReviewForm.tsx:16-21 | Editing an existing review loads its rating and comment; otherwise the form is unchanged. |
| ReviewForm.FormStars | src/components/ReviewForm.tsx:40-50 | Star n is lit iff the hovered star (or, without hover, the rating) is at least n; by `ReviewForm.ValidFormStars` a valid form lights between one and five leading stars. |
| ReviewForm.ShownRating | src/components/ReviewForm.tsx:50 | The star value shown is the hovered star while hovering and the rating otherwise, so within 1..5 in a valid form. |
| ReviewForm.Handle | src/components/ReviewForm.tsx:45-47 | Clicking sets the rating, entering a star sets the hover, leaving clears it, and typing sets the comment; each leaves every other field unchanged. |
| ReviewForm.Run | src/components/ReviewForm.tsx:12-47 | Any sequence of events keeps the rating within 1..5 and the hover within 0..5. Without clicks the rating is unchanged. |
| ReviewForm.ValidFormStars | src/components/ReviewForm.tsx:50 | In a valid form the shown rating is within 1..5 and exactly that many leading stars are lit. |
| ReviewForm.Submit | src/components/ReviewForm.tsx:23-26 | Submitting hands over the current rating and comment. |
| Js.Rem | src/services/productService.ts:43 | JavaScript's `%` equals the Euclidean remainder for a non-negative dividend. For a negative one it is 0 when b divides a, and `a mod b - b` otherwise. |
| Js.RemShift | src/services/productService.ts:43 | For non-negative a, adding a multiple of b does not change `a % b`. |
| Js.Lower | src/app/admin/products/page.tsx:41 | Lower-casing keeps the length and maps each character to its lower-case form. |
| Js.Includes | src/app/admin/products/page.tsx:41 | `includes` is true of every prefix and every suffix, and never of a string longer than the one searched. |
| Js.LowerIdempotent | src/app/admin/products/page.tsx:41 | Lower-casing twice is lower-casing once. |
| Js.OrElse | src/app/checkout/page.tsx:99 | `a \|\| b` on strings is a when a is non-empty, else b. |
| Seqs.Filter | src/context/CartContext.tsx:57 | Filtering keeps exactly the elements satisfying the predicate, each with its multiplicity, in original order. |
| Seqs.FilterKeepsAll | src/app/admin/products/page.tsx:40-42 | When every element passes, filtering returns the list unchanged. |
| Seqs.FilterCongruent | src/app/admin/products/page.tsx:40-42 | Predicates agreeing on the list's elements filter it identically. |

## Left out

- HTTP calls (axios, `src/services/api.ts`) are replaced by caller-supplied outcomes. Authentication (`AuthContext`) is not part of this model: the user, their id, email and name, and the loading flag are parameters.
- The `User` and `Review` shapes are inferred from their use in the pages, since their declarations are not part of this model.
- `localStorage` contents are abstracted as missing / unparsable / a saved cart. JSON text, and a parsable entry that is not a cart, are not modelled.
- Prices, totals and ratings are integers (the smallest currency unit). JavaScript floating-point sums and rounding are not modelled. The star rating's rounding in the section header is display only.
- Order dates are integer timestamps, not ISO strings parsed by `new Date`. The clock-derived `bill_number` and dates of the bill and order payloads are omitted.
- `parseInt(paymentType)` is modelled as an already-parsed integer. On the new-product form, the numeric fields are forwarded as text, without modelling `parseFloat` / `parseInt`.
- Checkout.FirstDetailFailure: when several detail requests fail, the model reports the lowest failing index. `Promise.all` reports the first rejection in time, which depends on scheduling.
- Checkout.ErrorMessage: a non-string `detail` in the response (such as a validation list) is not modelled; every field is a string, "" when absent.
- Js.Lower: lower-cases ASCII letters only; Unicode case mapping is not modelled.
- OrdersPage.SortNewestFirst: the result is newest-first and a permutation; the relative order of orders with equal dates is not stated.
- `window.confirm`, `alert`, `console`, router navigation and rendering (JSX, CSS classes other than the status colours) appear only as the booleans and navigation targets they decide.
- The cancel-order call, the order detail, profile, address, category, login and register pages, the admin dashboard and the product edit page are not part of this model. Their logic is CRUD forwarding with no decision of its own.
- The rewrites of `next.config.ts` belong to Next.js routing and are not part of this model. Neither is the unused duplicate product type of `src/types/product.ts`.
- Checkout.HandleSubmit: the submission runs as one step, so the states in between (`loading` true, the button showing "Procesando...") are not observable. Only `Checkout.Press` states that a press during a running submission is ignored.
- Checkout.SuccessRerenderAsksForCart: which of the two navigations requested after a purchase takes effect depends on the router's scheduling, and the model does not decide it.
- The reviews fetched on mount (`loadReviews`) are modelled as their result. The category list (`loadCategories`) only fills the new-product form's select and is not modelled.
- Cart.AddToCartQuantities: stated for carts with unique ids only. A restored cart with two lines for one product has both lines bumped by `addToCart`'s `map`; `Cart.ApplyAll` shows the cart's own actions never create such a cart.
- Cart.AddToCartSums: stated for carts with unique ids only, for the same reason.
- Cart.AddToCartCount: stated for carts with unique ids only; on a restored cart with k lines for the product, `cartCount` rises by k times the quantity.
- Cart.AddToCartTotal: stated for carts with unique ids only, for the same reason.

=== FILE: admin_layout.dfy ===
/** The authorization gate of the admin area, src/app/admin/layout.tsx. */
module AdminLayout {
  import opened Wrappers
  import opened Types

  const AdminEmail := "admin@gmail.com"

  /** The gate's own state and the navigation it requested. */
  datatype Gate = Gate(isAuthorized: bool, navigate: Option<string>)

  const InitialGate := Gate(false, None)

  predicate IsAdmin(user: Option<User>) {
    user.Some? && user.value.email == AdminEmail
  }

  /**
   * The effect: nothing while authentication loads; afterwards a missing or
   * non-admin user is sent to the home page and the admin is authorized.
   * Nothing ever sets `isAuthorized` back to false.
   */
  function Check(g: Gate, isLoading: bool, user: Option<User>): (g': Gate)
    ensures isLoading ==> g' == g
    ensures !isLoading && !IsAdmin(user) ==> g' == g.(navigate := Some("/"))
    ensures !isLoading && IsAdmin(user) ==> g' == g.(isAuthorized := true)
    ensures g.isAuthorized ==> g'.isAuthorized
  {
    if isLoading then g
    else if !IsAdmin(user) then g.(navigate := Some("/"))
    else g.(isAuthorized := true)
  }

  /** The children render only when authentication has loaded and the gate is open; otherwise the spinner does. */
  function ShowsChildren(g: Gate, isLoading: bool): (shown: bool)
    ensures shown <==> !isLoading && g.isAuthorized
  {
    !isLoading && g.isAuthorized
  }

  /** What the authentication context reports on one render. */
  datatype AuthSnapshot = AuthSnapshot(isLoading: bool, user: Option<User>)

  /**
   * The gate over a run of renders: it opens only after some loaded render
   * saw the admin, and once open it stays open.
   */
  function Run(g: Gate, renders: seq<AuthSnapshot>): (g': Gate)
    ensures g.isAuthorized ==> g'.isAuthorized
    ensures g'.isAuthorized ==>
      g.isAuthorized || exists i :: 0 <= i < |renders| && !renders[i].isLoading && IsAdmin(renders[i].user)
    decreases |renders|
  {
    if |renders| == 0 then g
    else
      var next := Check(g, renders[0].isLoading, renders[0].user);
      var r := Run(next, renders[1..]);
      assert r.isAuthorized && !g.isAuthorized && next.isAuthorized ==>
        !renders[0].isLoading && IsAdmin(renders[0].user);
      assert forall i :: 0 <= i < |renders[1..]| ==> renders[1..][i] == renders[i + 1];
      r
  }

  /** From the first render, the gate is open exactly when some loaded render saw the admin. */
  lemma RunFromInitial(renders: seq<AuthSnapshot>)
    ensures Run(InitialGate, renders).isAuthorized <==>
      exists i :: 0 <= i < |renders| && !renders[i].isLoading && IsAdmin(renders[i].user)
  {
    if exists i :: 0 <= i < |renders| && !renders[i].isLoading && IsAdmin(renders[i].user) {
      var i :| 0 <= i < |renders| && !renders[i].isLoading && IsAdmin(renders[i].user);
      RunOpensAt(InitialGate, renders, i);
    }
  }

  /** A loaded render that sees the admin opens the gate for good. */
  lemma {:induction false} RunOpensAt(g: Gate, renders: seq<AuthSnapshot>, i: int)
    requires 0 <= i < |renders| && !renders[i].isLoading && IsAdmin(renders[i].user)
    ensures Run(g, renders).isAuthorized
    decreases |renders|
  {
    var next := Check(g, renders[0].isLoading, renders[0].user);
    if i > 0 {
      assert renders[1..][i - 1] == renders[i];
      RunOpensAt(next, renders[1..], i - 1);
    }
  }
}

=== FILE: admin_products.dfy ===
/** The admin product list of src/app/admin/products/page.tsx: deletion and name search. */
module AdminProducts {
  import opened Wrappers
  import opened Js
  import opened Seqs
  import opened Types

  /** What a delete click leaves behind: the list, the delete request sent (if any), and whether the failure alert showed. */
  datatype DeleteResult = DeleteResult(products: seq<Product>, request: Option<int>, alerted: bool)

  /** The filter callback after a delete: every product with another id. */
  function OtherId(id: int): Product -> bool {
    (p: Product) => p.id_key != id
  }

  /**
   * `handleDelete(id)`: nothing happens unless the dialog is confirmed; then
   * the delete request is sent, and if it succeeds the list drops every
   * product with that id, keeping the order of the rest; if it fails the
   * list is kept and the alert shows.
   */
  function HandleDelete(products: seq<Product>, id: int, confirmed: bool, deleted: bool): (r: DeleteResult)
    ensures r.request.Some? <==> confirmed
    ensures r.request.Some? ==> r.request.value == id
    ensures r.alerted <==> confirmed && !deleted
    ensures !(confirmed && deleted) ==> r.products == products
    ensures confirmed && deleted ==>
      forall p :: p in r.products <==> p in products && p.id_key != id
    ensures confirmed && deleted ==>
      forall p :: multiset(r.products)[p] == if p.id_key == id then 0 else multiset(products)[p]
    ensures IsSubsequence(r.products, products)
  {
    if !confirmed then
      SubsequenceReflexive(products);
      DeleteResult(products, None, false)
    else if deleted then DeleteResult(Filter(products, OtherId(id)), Some(id), false)
    else
      SubsequenceReflexive(products);
      DeleteResult(products, Some(id), true)
  }

  /** The search callback: the lower-cased name includes the lower-cased term. */
  function Matches(term: string): Product -> bool {
    (p: Product) => Includes(Lower(p.name), Lower(term))
  }

  /** `filteredProducts`: the products whose name contains the search term, ignoring case, in list order. */
  function SearchResults(products: seq<Product>, term: string): (r: seq<Product>)
    ensures forall p :: p in r <==> p in products && Includes(Lower(p.name), Lower(term))
    ensures forall p :: multiset(r)[p] == if Includes(Lower(p.name), Lower(term)) then multiset(products)[p] else 0
    ensures IsSubsequence(r, products)
  {
    Filter(products, Matches(term))
  }

  /** An empty search term shows every product. */
  lemma EmptySearchShowsAll(products: seq<Product>)
    ensures SearchResults(products, "") == products
  {
    forall p | p in products
      ensures Matches("")(p)
    {
      IncludesEmpty(Lower(p.name));
    }
    FilterKeepsAll(products, Matches(""));
  }

  /** Terms that differ only in letter case give the same results. */
  lemma SearchIgnoresCase(products: seq<Product>, term: string, term': string)
    requires Lower(term) == Lower(term')
    ensures SearchResults(products, term) == SearchResults(products, term')
  {
    FilterCongruent(products, Matches(term), Matches(term'));
  }

  /** In particular, searching for the lower-cased term is the same search. */
  lemma SearchLowerCaseTerm(products: seq<Product>, term: string)
    ensures SearchResults(products, Lower(term)) == SearchResults(products, term)
  {
    LowerIdempotent(term);
    SearchIgnoresCase(products, Lower(term), term);
  }
}

=== FILE: cart.dfy ===
/**
 * The persisted shopping cart of src/context/CartContext.tsx: an ordered list
 * of (product snapshot, quantity) lines with merge-by-id insertion, removal by
 * id, clearing, and the derived `total` and `cartCount`.
 */
module Cart {
  import opened Wrappers
  import opened Seqs
  import opened Types

  /** One cart line: a snapshot of the product taken when it was added, and a quantity. */
  datatype CartItem = CartItem(product: Product, quantity: int)

  /** Lines in insertion order, which is also the display order. */
  type Cart = seq<CartItem>

  predicate HasProduct(cart: Cart, id: int) {
    exists i :: 0 <= i < |cart| && cart[i].product.id_key == id
  }

  /** The cart's invariant: no two lines carry the same product id. */
  predicate UniqueIds(cart: Cart) {
    forall i, j :: 0 <= i < j < |cart| ==> cart[i].product.id_key != cart[j].product.id_key
  }

  /**
   * `addToCart`: when a line for the product's id exists, every such line has
   * its quantity raised by `quantity` and keeps its original product snapshot;
   * otherwise a new line is appended.
   */
  function AddToCart(cart: Cart, product: Product, quantity: int): (r: Cart)
    ensures HasProduct(cart, product.id_key) ==> |r| == |cart|
    ensures !HasProduct(cart, product.id_key) ==> r == cart + [CartItem(product, quantity)]
    ensures forall i :: 0 <= i < |cart| ==>
      (i < |r| &&
       r[i] == if cart[i].product.id_key == product.id_key
               then CartItem(cart[i].product, cart[i].quantity + quantity)
               else cart[i])
    ensures HasProduct(r, product.id_key)
    ensures forall id :: HasProduct(r, id) <==> HasProduct(cart, id) || id == product.id_key
    ensures UniqueIds(cart) ==> UniqueIds(r)
  {
    if HasProduct(cart, product.id_key) then
      var r := seq(|cart|, i requires 0 <= i < |cart| =>
        if cart[i].product.id_key == product.id_key
        then cart[i].(quantity := cart[i].quantity + quantity)
        else cart[i]);
      assert forall i :: 0 <= i < |cart| ==> r[i].product == cart[i].product;
      r
    else
      var r := cart + [CartItem(product, quantity)];
      assert r[|cart|].product.id_key == product.id_key;
      r
  }

  /** The filter callback of `removeFromCart`: keep lines of any other product. */
  function OtherThan(id: int): CartItem -> bool {
    (item: CartItem) => item.product.id_key != id
  }

  /** `removeFromCart`: drops every line with the given id and keeps the rest in order. */
  function RemoveFromCart(cart: Cart, id: int): (r: Cart)
    ensures forall item :: item in r <==> item in cart && item.product.id_key != id
    ensures forall item :: multiset(r)[item] == if item.product.id_key == id then 0 else multiset(cart)[item]
    ensures IsSubsequence(r, cart)
    ensures !HasProduct(r, id)
    ensures forall id' :: id' != id ==> (HasProduct(r, id') <==> HasProduct(cart, id'))
    ensures !HasProduct(cart, id) ==> r == cart
    ensures UniqueIds(cart) ==> UniqueIds(r)
  {
    var keep := OtherThan(id);
    var r := Filter(cart, keep);
    assert !HasProduct(r, id) by {
      forall i | 0 <= i < |r|
        ensures r[i].product.id_key != id
      {
        assert r[i] in r;
      }
    }
    assert forall id' :: id' != id ==> (HasProduct(r, id') <==> HasProduct(cart, id')) by {
      forall id' | id' != id
        ensures HasProduct(r, id') <==> HasProduct(cart, id')
      {
        if HasProduct(r, id') {
          var i :| 0 <= i < |r| && r[i].product.id_key == id';
          assert r[i] in r;
        }
        if HasProduct(cart, id') {
          var i :| 0 <= i < |cart| && cart[i].product.id_key == id';
          assert cart[i] in cart;
        }
      }
    }
    assert !HasProduct(cart, id) ==> r == cart by {
      if !HasProduct(cart, id) {
        FilterKeepsAll(cart, keep);
      }
    }
    assert UniqueIds(cart) ==> UniqueIds(r) by {
      if UniqueIds(cart) {
        SubsequenceUnique(r, cart);
      }
    }
    r
  }

  /** `clearCart`: the empty cart, which has no lines, no units and no amount. */
  function ClearCart(): (r: Cart)
    ensures |r| == 0 && CartCount(r) == 0 && Total(r) == 0
  {
    []
  }

  /** What a line contributes to a sum over the cart. */
  datatype Measure =
    | Amount                        // price times quantity
    | Units                         // quantity
    | Only(id: int, inner: Measure) // `inner`, counted only on lines of product `id`

  function Weigh(m: Measure, item: CartItem): int {
    match m
    case Amount => item.product.price * item.quantity
    case Units => item.quantity
    case Only(id, inner) => if item.product.id_key == id then Weigh(inner, item) else 0
  }

  /** `cart.reduce((sum, item) => sum + weight(item), 0)`: a left fold, hence recursion on the prefix. */
  function SumBy(cart: Cart, m: Measure): int
    decreases |cart|
  {
    if |cart| == 0 then 0 else SumBy(cart[..|cart| - 1], m) + Weigh(m, cart[|cart| - 1])
  }

  /** The same sum written as a right fold: the first line's weight plus the sum over the rest. */
  function SumFromFront(cart: Cart, m: Measure): int
    decreases |cart|
  {
    if |cart| == 0 then 0 else Weigh(m, cart[0]) + SumFromFront(cart[1..], m)
  }

  /** `total`: the sum of price times quantity over the lines, in whichever order it is folded. */
  function Total(cart: Cart): (r: int)
    ensures r == SumFromFront(cart, Amount)
  {
    FoldsAgree(cart, Amount);
    SumBy(cart, Amount)
  }

  /** `cartCount`: the sum of the quantities, in whichever order it is folded. */
  function CartCount(cart: Cart): (r: int)
    ensures r == SumFromFront(cart, Units)
  {
    FoldsAgree(cart, Units);
    SumBy(cart, Units)
  }

  /** The left fold of `reduce` and the right fold agree on every cart. */
  lemma {:induction false} FoldsAgree(cart: Cart, m: Measure)
    ensures SumBy(cart, m) == SumFromFront(cart, m)
    decreases |cart|
  {
    if |cart| > 0 {
      SumByCons(cart, m);
      FoldsAgree(cart[1..], m);
    }
  }

  /** The left fold read from the front: the first line's weight plus the sum over the rest. */
  lemma SumByCons(cart: Cart, m: Measure)
    requires |cart| > 0
    ensures SumBy(cart, m) == Weigh(m, cart[0]) + SumBy(cart[1..], m)
  {
    assert cart == [cart[0]] + cart[1..];
    SumByAppend([cart[0]], cart[1..], m);
    assert [cart[0]][..0] == [];
  }

  /** The units of one product held in the cart: the cart read as a map from product id to quantity. */
  function QuantityOf(cart: Cart, id: int): int {
    SumBy(cart, Only(id, Units))
  }

  /** A unique-id sub-sequence of a unique-id cart keeps unique ids. */
  lemma {:induction false} SubsequenceUnique(a: Cart, b: Cart)
    requires IsSubsequence(a, b) && UniqueIds(b)
    ensures UniqueIds(a)
    decreases |b|
  {
    if |a| > 0 && |b| > 0 {
      var a', b' := a[..|a| - 1], b[..|b| - 1];
      assert UniqueIds(b');
      if a[|a| - 1] == b[|b| - 1] {
        SubsequenceUnique(a', b');
        SubsequenceMembers(a', b');
        forall i | 0 <= i < |a'|
          ensures a'[i].product.id_key != a[|a| - 1].product.id_key
        {
          assert a'[i] in b';
          var j :| 0 <= j < |b'| && b'[j] == a'[i];
        }
      } else {
        SubsequenceUnique(a, b');
      }
    }
  }

  /** Sums over a concatenation add up. */
  lemma {:induction false} SumByAppend(a: Cart, b: Cart, m: Measure)
    ensures SumBy(a + b, m) == SumBy(a, m) + SumBy(b, m)
    decreases |b|
  {
    if |b| > 0 {
      var b' := b[..|b| - 1];
      assert (a + b)[..|a + b| - 1] == a + b';
      assert (a + b)[|a + b| - 1] == b[|b| - 1];
      SumByAppend(a, b', m);
    } else {
      assert a + b == a;
    }
  }

  /** Changing one line changes a sum by exactly that line's difference. */
  lemma {:induction false} SumByUpdate(c: Cart, r: Cart, k: int, m: Measure)
    requires |r| == |c| && 0 <= k < |c|
    requires forall i :: 0 <= i < |c| && i != k ==> r[i] == c[i]
    ensures SumBy(r, m) == SumBy(c, m) - Weigh(m, c[k]) + Weigh(m, r[k])
    decreases |c|
  {
    var n := |c| - 1;
    if k == n {
      assert r[..n] == c[..n];
    } else {
      SumByUpdate(c[..n], r[..n], k, m);
    }
  }

  /** A measure that is zero on every line sums to zero. */
  lemma {:induction false} SumByZero(c: Cart, m: Measure)
    requires forall i :: 0 <= i < |c| ==> Weigh(m, c[i]) == 0
    ensures SumBy(c, m) == 0
    decreases |c|
  {
    if |c| > 0 {
      SumByZero(c[..|c| - 1], m);
    }
  }

  /** In a unique-id cart the quantity of a product is that of its one line. */
  lemma {:induction false} QuantityOfLine(c: Cart, k: int)
    requires UniqueIds(c) && 0 <= k < |c|
    ensures QuantityOf(c, c[k].product.id_key) == c[k].quantity
    decreases |c|
  {
    var n := |c| - 1;
    var id := c[k].product.id_key;
    if k == n {
      assert forall i :: 0 <= i < n ==> c[..n][i].product.id_key != id;
      SumByZero(c[..n], Only(id, Units));
      assert QuantityOf(c, id) == SumBy(c[..n], Only(id, Units)) + Weigh(Only(id, Units), c[n]);
    } else {
      QuantityOfLine(c[..n], k);
    }
  }

  /**
   * Adding `quantity` of a product to a unique-id cart raises that product's
   * quantity by `quantity` and leaves every other product's quantity alone.
   */
  lemma AddToCartQuantities(cart: Cart, product: Product, quantity: int, id: int)
    requires UniqueIds(cart)
    ensures QuantityOf(AddToCart(cart, product, quantity), id)
         == QuantityOf(cart, id) + (if id == product.id_key then quantity else 0)
  {
    AddToCartSums(cart, product, quantity, Only(id, Units));
    if HasProduct(cart, product.id_key) {
      var k :| 0 <= k < |cart| && cart[k].product.id_key == product.id_key;
      assert Weigh(Only(id, Units), CartItem(cart[k].product, cart[k].quantity + quantity))
          == Weigh(Only(id, Units), cart[k]) + (if id == product.id_key then quantity else 0);
    }
  }

  /**
   * The change a sum sees when `quantity` of `product` is added to a unique-id
   * cart: the weight of the merged line minus the weight of the old one, or
   * the weight of the appended line.
   */
  lemma AddToCartSums(cart: Cart, product: Product, quantity: int, m: Measure)
    requires UniqueIds(cart)
    ensures !HasProduct(cart, product.id_key) ==>
      SumBy(AddToCart(cart, product, quantity), m) == SumBy(cart, m) + Weigh(m, CartItem(product, quantity))
    ensures forall k :: 0 <= k < |cart| && cart[k].product.id_key == product.id_key ==>
      SumBy(AddToCart(cart, product, quantity), m)
        == SumBy(cart, m) - Weigh(m, cart[k]) + Weigh(m, CartItem(cart[k].product, cart[k].quantity + quantity))
  {
    var r := AddToCart(cart, product, quantity);
    if HasProduct(cart, product.id_key) {
      forall k | 0 <= k < |cart| && cart[k].product.id_key == product.id_key
        ensures SumBy(r, m) == SumBy(cart, m) - Weigh(m, cart[k]) + Weigh(m, CartItem(cart[k].product, cart[k].quantity + quantity))
      {
        SumByUpdate(cart, r, k, m);
      }
    } else {
      SumByAppend(cart, [CartItem(product, quantity)], m);
      assert SumBy([CartItem(product, quantity)], m) == Weigh(m, CartItem(product, quantity)) by {
        assert [CartItem(product, quantity)][..0] == [];
      }
    }
  }

  /** Adding `quantity` to a unique-id cart raises `cartCount` by exactly `quantity`. */
  lemma AddToCartCount(cart: Cart, product: Product, quantity: int)
    requires UniqueIds(cart)
    ensures CartCount(AddToCart(cart, product, quantity)) == CartCount(cart) + quantity
  {
    AddToCartSums(cart, product, quantity, Units);
  }

  /**
   * Adding to a unique-id cart raises `total` by `quantity` times the price of
   * the line's snapshot: the product passed in when the line is new, the
   * snapshot already in the cart when it merges.
   */
  lemma AddToCartTotal(cart: Cart, product: Product, quantity: int)
    requires UniqueIds(cart)
    ensures !HasProduct(cart, product.id_key) ==>
      Total(AddToCart(cart, product, quantity)) == Total(cart) + product.price * quantity
    ensures forall k :: 0 <= k < |cart| && cart[k].product.id_key == product.id_key ==>
      Total(AddToCart(cart, product, quantity)) == Total(cart) + cart[k].product.price * quantity
  {
    AddToCartSums(cart, product, quantity, Amount);
  }

  /** Appending a line adds its weight to a sum. */
  lemma SumBySnoc(init: Cart, last: CartItem, m: Measure)
    ensures SumBy(init + [last], m) == SumBy(init, m) + Weigh(m, last)
  {
    assert (init + [last])[..|init|] == init;
  }

  /** Filtering out a product id splits every sum into what stays and what that product contributed. */
  lemma {:induction false} FilterOtherThanSums(cart: Cart, id: int, m: Measure)
    ensures SumBy(cart, m) == SumBy(Filter(cart, OtherThan(id)), m) + SumBy(cart, Only(id, m))
    ensures SumBy(Filter(cart, OtherThan(id)), Only(id, m)) == 0
    decreases |cart|
  {
    if |cart| > 0 {
      var init, last := cart[..|cart| - 1], cart[|cart| - 1];
      FilterOtherThanSums(init, id, m);
      var r' := Filter(init, OtherThan(id));
      if last.product.id_key != id {
        assert Filter(cart, OtherThan(id)) == r' + [last];
        SumBySnoc(r', last, m);
        SumBySnoc(r', last, Only(id, m));
      } else {
        assert Filter(cart, OtherThan(id)) == r';
      }
    }
  }

  /** Removing a product id splits every sum into what stays and what that product contributed. */
  lemma RemoveFromCartSums(cart: Cart, id: int, m: Measure)
    ensures SumBy(cart, m) == SumBy(RemoveFromCart(cart, id), m) + SumBy(cart, Only(id, m))
    ensures SumBy(RemoveFromCart(cart, id), Only(id, m)) == 0
  {
    FilterOtherThanSums(cart, id, m);
  }

  /** After `removeFromCart(id)` the product's quantity is zero and no other product's quantity changed. */
  lemma RemoveFromCartQuantities(cart: Cart, id: int, id': int)
    ensures QuantityOf(RemoveFromCart(cart, id), id') == if id' == id then 0 else QuantityOf(cart, id')
  {
    if id' != id {
      RemoveFromCartSums(cart, id, Only(id', Units));
      assert forall i :: 0 <= i < |cart| ==> Weigh(Only(id, Only(id', Units)), cart[i]) == 0;
      SumByZero(cart, Only(id, Only(id', Units)));
    } else {
      RemoveFromCartSums(cart, id, Units);
    }
  }

  /** `removeFromCart(id)` lowers `cartCount` by that product's quantity and `total` by its amount. */
  lemma RemoveFromCartTotals(cart: Cart, id: int)
    ensures CartCount(RemoveFromCart(cart, id)) == CartCount(cart) - QuantityOf(cart, id)
    ensures Total(RemoveFromCart(cart, id)) == Total(cart) - SumBy(cart, Only(id, Amount))
  {
    RemoveFromCartSums(cart, id, Units);
    RemoveFromCartSums(cart, id, Amount);
  }

  /** One call of the cart's API. */
  datatype CartAction = Add(product: Product, quantity: int) | Remove(id: int) | Clear

  function Apply(cart: Cart, action: CartAction): Cart {
    match action
    case Add(p, q) => AddToCart(cart, p, q)
    case Remove(id) => RemoveFromCart(cart, id)
    case Clear => ClearCart()
  }

  /** Every sequence of `addToCart` / `removeFromCart` / `clearCart` calls keeps product ids unique. */
  function ApplyAll(cart: Cart, actions: seq<CartAction>): (r: Cart)
    ensures UniqueIds(cart) ==> UniqueIds(r)
    decreases |actions|
  {
    if |actions| == 0 then cart else ApplyAll(Apply(cart, actions[0]), actions[1..])
  }

  /** What the browser's local storage holds under the key `cart`. */
  datatype StoredCart =
    | Missing           // no entry, or the empty string
    | Unparsable        // text `JSON.parse` rejects
    | Saved(lines: Cart)

  /** The cart provider's state: the lines in memory and the stored copy. */
  datatype CartStore = CartStore(lines: Cart, storage: StoredCart)

  /** Memory and storage agree, which every operation re-establishes. */
  predicate Synced(store: CartStore) {
    store.storage == Saved(store.lines)
  }

  /**
   * Mounting the provider: the save effect first writes the initial empty
   * cart, then a stored cart that parses replaces it and is written back.
   * A missing or unparsable entry leaves the cart empty (and the corrupt
   * entry is overwritten).
   */
  function Mount(storage: StoredCart): (s: CartStore)
    ensures storage.Saved? ==> s.lines == storage.lines
    ensures !storage.Saved? ==> s.lines == []
    ensures Synced(s)
  {
    match storage
    case Saved(lines) => CartStore(lines, Saved(lines))
    case _ => CartStore([], Saved([]))
  }

  /** Performs one cart operation and persists the result, as the save effect does. */
  function Perform(store: CartStore, action: CartAction): (s: CartStore)
    ensures Synced(s)
    ensures UniqueIds(store.lines) ==> UniqueIds(s.lines)
  {
    var lines := Apply(store.lines, action);
    CartStore(lines, Saved(lines))
  }

  /** Reloading the page after any operation restores the same cart. */
  lemma ReloadRestores(store: CartStore, action: CartAction)
    ensures Mount(Perform(store, action).storage) == Perform(store, action)
    ensures Mount(Perform(store, action).storage).lines == Apply(store.lines, action)
  {
  }
}

=== FILE: checkout.dfy ===
/**
 * The checkout page of src/app/checkout/page.tsx: its render guards and the
 * `handleSubmit` saga (address, bill, order, one detail per cart line). Each
 * backend call is replaced by a caller-supplied outcome, so a submission is a
 * pure function from (user, cart, form, outcomes) to (issued requests, cart
 * afterwards, error message, navigation).
 */
module Checkout {
  import opened Wrappers
  import opened Js
  import opened Types
  import opened Cart

  const LoginRedirect := "/login?redirect=/checkout"
  const CartPath := "/cart"
  const SuccessPath := "/profile"

  const NoClientMessage := "Usuario no identificado. Por favor reconecta."
  const NoBillMessage := "Error al generar factura."
  const NoOrderMessage := "Error al generar orden."
  const GenericMessage := "Error al procesar la compra."

  /**
   * The guards that run on every render in the browser: an unauthenticated
   * visitor goes to the login page first, then an empty cart sends the user
   * back to the cart page. On the server (`window` undefined) neither fires.
   */
  function RenderGuard(inBrowser: bool, isAuthenticated: bool, cart: Cart): (redirect: Option<string>)
    ensures inBrowser && !isAuthenticated ==> redirect == Some(LoginRedirect)
    ensures inBrowser && isAuthenticated && |cart| == 0 ==> redirect == Some(CartPath)
    ensures redirect.None? <==> !inBrowser || (isAuthenticated && |cart| > 0)
  {
    if inBrowser && !isAuthenticated then Some(LoginRedirect)
    else if inBrowser && |cart| == 0 then Some(CartPath)
    else None
  }

  /** The form's fields; `paymentType` is the selected option's code (1 to 5 in the form). */
  datatype CheckoutForm = CheckoutForm(street: string, number: string, city: string, paymentType: int)

  /**
   * The requests `handleSubmit` issues, with the payload fields of
   * src/services/orderService.ts. The clock-derived `bill_number` and dates
   * are not modelled.
   */
  datatype Request =
    | CreateAddress(street: string, number: string, city: string, client_id: int)
    | CreateBill(total: int, payment_type: int, client_id: int)
    | CreateOrder(total: int, delivery_method: int, status: int, client_id: int, bill_id: int)
    | CreateOrderDetail(quantity: int, order_id: int, product_id: int)

  /**
   * A rejected step as the catch block sees it: the response's `detail` and
   * `message` fields and the error's own `message`, each "" when absent.
   */
  datatype Failure = Failure(detail: string, message: string, errMessage: string)

  /** An `Error` thrown by the page itself: no response, only a message. */
  function Thrown(message: string): Failure {
    Failure("", "", message)
  }

  /** What one backend call did: resolved with a body carrying `id_key` or not, or rejected. */
  datatype StepOutcome = Ok(id_key: Option<int>) | Fail(failure: Failure)

  /** The outcomes of the calls one submission may make; `detail(i)` answers the i-th cart line. */
  datatype Backend = Backend(address: StepOutcome, bill: StepOutcome, order: StepOutcome, detail: nat -> StepOutcome)

  /**
   * What a submission leaves behind: the requests issued, the cart, the error
   * shown, the navigation requested, and the page's `loading` flag.
   */
  datatype Submission = Submission(requests: seq<Request>, cart: Cart, error: string, navigate: Option<string>, loading: bool)

  /**
   * The catch block's message: the first non-empty value among the response's
   * `detail`, the response's `message`, the error's `message`, and the generic text.
   */
  function ErrorMessage(f: Failure): (msg: string)
    ensures msg != ""
    ensures f.detail != "" ==> msg == f.detail
    ensures f.detail == "" && f.message != "" ==> msg == f.message
    ensures f.detail == "" && f.message == "" && f.errMessage != "" ==> msg == f.errMessage
    ensures f.detail == "" && f.message == "" && f.errMessage == "" ==> msg == GenericMessage
  {
    OrElse(f.detail, OrElse(f.message, OrElse(f.errMessage, GenericMessage)))
  }

  /**
   * The index of the first failing detail request among lines `from` up to `n`.
   * `Promise.all` rejects with whichever rejection settles first; the model
   * takes the lowest index.
   */
  function FirstDetailFailure(detail: nat -> StepOutcome, from: nat, n: nat): (r: Option<nat>)
    ensures r.None? <==> forall i :: from <= i < n ==> detail(i).Ok?
    ensures r.Some? ==> from <= r.value < n && detail(r.value).Fail?
    ensures r.Some? ==> forall i :: from <= i < r.value ==> detail(i).Ok?
    decreases n - from
  {
    if from >= n then None
    else if detail(from).Fail? then Some(from)
    else FirstDetailFailure(detail, from + 1, n)
  }

  /** One order-detail request per cart line, in cart order. */
  function DetailRequests(cart: Cart, orderId: int): (reqs: seq<Request>)
    ensures |reqs| == |cart|
    ensures forall i :: 0 <= i < |cart| ==>
      reqs[i] == CreateOrderDetail(cart[i].quantity, orderId, cart[i].product.id_key)
  {
    seq(|cart|, i requires 0 <= i < |cart| => CreateOrderDetail(cart[i].quantity, orderId, cart[i].product.id_key))
  }

  /** A failed submission: the cart is kept and the error shown; no navigation. */
  function Failed(requests: seq<Request>, cart: Cart, f: Failure): Submission {
    Submission(requests, cart, ErrorMessage(f), None, false)
  }

  /**
   * `handleSubmit`, from the click to the `finally` block: `loading` is set
   * on entry and cleared on every exit, so it is false afterwards. Either the
   * purchase completes (no error, cart cleared, navigation to the profile) or
   * it fails (an error shown, cart kept, no navigation).
   */
  function HandleSubmit(user: Option<User>, cart: Cart, form: CheckoutForm, backend: Backend): (r: Submission)
    ensures !r.loading
    ensures r.error == "" <==> r.navigate.Some?
    ensures r.navigate.Some? ==> r.navigate.value == SuccessPath && r.cart == []
    ensures r.navigate.None? ==> r.cart == cart
  {
    if user.None? || !IdTruthy(user.value.id_key) then
      Failed([], cart, Thrown(NoClientMessage))
    else
      var clientId := user.value.id_key.value;
      var total := Total(cart);
      var address := CreateAddress(form.street, form.number, form.city, clientId);
      if backend.address.Fail? then
        Failed([address], cart, backend.address.failure)
      else
        var bill := CreateBill(total, form.paymentType, clientId);
        if backend.bill.Fail? then
          Failed([address, bill], cart, backend.bill.failure)
        else if !IdTruthy(backend.bill.id_key) then
          Failed([address, bill], cart, Thrown(NoBillMessage))
        else
          var order := CreateOrder(total, HomeDelivery.Code(), Pending.Code(), clientId, backend.bill.id_key.value);
          if backend.order.Fail? then
            Failed([address, bill, order], cart, backend.order.failure)
          else if !IdTruthy(backend.order.id_key) then
            Failed([address, bill, order], cart, Thrown(NoOrderMessage))
          else
            var requests := [address, bill, order] + DetailRequests(cart, backend.order.id_key.value);
            match FirstDetailFailure(backend.detail, 0, |cart|)
            case Some(i) => Failed(requests, cart, backend.detail(i).failure)
            case None => Submission(requests, ClearCart(), "", Some(SuccessPath), false)
  }

  /**
   * A press of the pay button. The button is disabled while `loading`, so a
   * press during a running submission does nothing; otherwise it runs
   * `handleSubmit`.
   */
  function Press(loading: bool, user: Option<User>, cart: Cart, form: CheckoutForm, backend: Backend): (r: Option<Submission>)
    ensures loading ==> r.None?
    ensures !loading ==> r == Some(HandleSubmit(user, cart, form, backend))
    ensures r.Some? ==> !r.value.loading
  {
    if loading then None else Some(HandleSubmit(user, cart, form, backend))
  }

  /** The independent statement of success: a client id, and every step resolved with the ids it needs. */
  predicate AllStepsSucceed(user: Option<User>, backend: Backend, lines: nat) {
    && user.Some? && IdTruthy(user.value.id_key)
    && backend.address.Ok?
    && backend.bill.Ok? && IdTruthy(backend.bill.id_key)
    && backend.order.Ok? && IdTruthy(backend.order.id_key)
    && forall i :: 0 <= i < lines ==> backend.detail(i).Ok?
  }

  /**
   * The cart is cleared, no error is shown and the user is sent to the
   * profile exactly when every step succeeds; otherwise the cart is unchanged
   * and a non-empty error is shown.
   */
  lemma SubmitClearsOnlyOnSuccess(user: Option<User>, cart: Cart, form: CheckoutForm, backend: Backend)
    ensures var r := HandleSubmit(user, cart, form, backend);
      AllStepsSucceed(user, backend, |cart|) <==> r.error == ""
    ensures var r := HandleSubmit(user, cart, form, backend);
      AllStepsSucceed(user, backend, |cart|) ==> r.cart == [] && r.navigate == Some(SuccessPath)
    ensures var r := HandleSubmit(user, cart, form, backend);
      !AllStepsSucceed(user, backend, |cart|) ==> r.cart == cart && r.navigate.None?
  {
  }

  /**
   * After a successful purchase the handler asks for the profile page, but
   * clearing the cart re-renders the still-mounted checkout page with an
   * empty cart, and its guard then asks for the cart page as well. Which of
   * the two navigations wins is up to the router.
   */
  lemma SuccessRerenderAsksForCart(user: Option<User>, cart: Cart, form: CheckoutForm, backend: Backend)
    requires AllStepsSucceed(user, backend, |cart|)
    ensures var r := HandleSubmit(user, cart, form, backend);
      r.navigate == Some(SuccessPath) && RenderGuard(true, true, r.cart) == Some(CartPath)
  {
    SubmitClearsOnlyOnSuccess(user, cart, form, backend);
  }

  /** Without a user or a truthy client id the submission fails with the reconnect message and sends nothing. */
  lemma SubmitNeedsClient(user: Option<User>, cart: Cart, form: CheckoutForm, backend: Backend)
    requires user.None? || !IdTruthy(user.value.id_key)
    ensures HandleSubmit(user, cart, form, backend) == Submission([], cart, NoClientMessage, None, false)
  {
  }

  /** The kind of request that may stand at each position of a submission. */
  datatype Step = AddressStep | BillStep | OrderStep | DetailStep

  function StepOf(r: Request): Step {
    match r
    case CreateAddress(_, _, _, _) => AddressStep
    case CreateBill(_, _, _) => BillStep
    case CreateOrder(_, _, _, _, _) => OrderStep
    case CreateOrderDetail(_, _, _) => DetailStep
  }

  /** The planned order: address, bill, order, then details. */
  function PlannedStep(i: nat): Step {
    if i == 0 then AddressStep else if i == 1 then BillStep else if i == 2 then OrderStep else DetailStep
  }

  /** The issued requests are a prefix of the plan address, bill, order, `lines` details. */
  predicate FollowsPlan(requests: seq<Request>, lines: nat) {
    |requests| <= 3 + lines && forall i :: 0 <= i < |requests| ==> StepOf(requests[i]) == PlannedStep(i)
  }

  /**
   * Requests go out in the order address, bill, order, details, and a failing
   * step stops the sequence: nothing after it is issued.
   */
  lemma SubmitFollowsPlan(user: Option<User>, cart: Cart, form: CheckoutForm, backend: Backend)
    requires user.Some? && IdTruthy(user.value.id_key)
    ensures var r := HandleSubmit(user, cart, form, backend);
      FollowsPlan(r.requests, |cart|)
    ensures backend.address.Fail? ==> |HandleSubmit(user, cart, form, backend).requests| == 1
    ensures backend.address.Ok? && (backend.bill.Fail? || !IdTruthy(backend.bill.id_key)) ==>
      |HandleSubmit(user, cart, form, backend).requests| == 2
    ensures (backend.address.Ok? && backend.bill.Ok? && IdTruthy(backend.bill.id_key)
             && (backend.order.Fail? || !IdTruthy(backend.order.id_key))) ==>
      |HandleSubmit(user, cart, form, backend).requests| == 3
    ensures (backend.address.Ok? && backend.bill.Ok? && IdTruthy(backend.bill.id_key)
             && backend.order.Ok? && IdTruthy(backend.order.id_key)) ==>
      |HandleSubmit(user, cart, form, backend).requests| == 3 + |cart|
  {
  }

  /**
   * Every payload carries the user's client id; the bill and the order carry
   * the cart's total; the order is a pending home delivery against the
   * returned bill id.
   */
  lemma SubmitPayloads(user: Option<User>, cart: Cart, form: CheckoutForm, backend: Backend)
    requires user.Some? && IdTruthy(user.value.id_key)
    ensures var r := HandleSubmit(user, cart, form, backend);
      var clientId := user.value.id_key.value;
      && (|r.requests| > 0 ==> r.requests[0] == CreateAddress(form.street, form.number, form.city, clientId))
      && (|r.requests| > 1 ==> r.requests[1] == CreateBill(Total(cart), form.paymentType, clientId))
      && (|r.requests| > 2 ==>
            backend.bill.Ok? && IdTruthy(backend.bill.id_key) &&
            r.requests[2] == CreateOrder(Total(cart), 3, 1, clientId, backend.bill.id_key.value))
  {
    var r := HandleSubmit(user, cart, form, backend);
    var clientId := user.value.id_key.value;
    var address := CreateAddress(form.street, form.number, form.city, clientId);
    var bill := CreateBill(Total(cart), form.paymentType, clientId);
    if backend.address.Fail? {
      assert r.requests == [address];
    } else if backend.bill.Fail? || !IdTruthy(backend.bill.id_key) {
      assert r.requests == [address, bill];
    } else {
      var order := CreateOrder(Total(cart), 3, 1, clientId, backend.bill.id_key.value);
      assert r.requests[..3] == [address, bill, order];
    }
  }

  /**
   * Once the order is created, exactly one detail per cart line is sent,
   * carrying the line's quantity and product id and the returned order id.
   */
  lemma SubmitDetails(user: Option<User>, cart: Cart, form: CheckoutForm, backend: Backend)
    requires user.Some? && IdTruthy(user.value.id_key)
    ensures var r := HandleSubmit(user, cart, form, backend);
      forall i :: 3 <= i < |r.requests| ==>
        backend.order.Ok? && IdTruthy(backend.order.id_key) &&
        r.requests[i] == CreateOrderDetail(cart[i - 3].quantity, backend.order.id_key.value, cart[i - 3].product.id_key)
  {
  }

  /**
   * The message a failed submission shows is the one of the step that failed:
   * the earliest failing step, by the catch block's precedence.
   */
  lemma SubmitErrorMessage(user: Option<User>, cart: Cart, form: CheckoutForm, backend: Backend)
    requires user.Some? && IdTruthy(user.value.id_key)
    ensures backend.address.Fail? ==>
      HandleSubmit(user, cart, form, backend).error == ErrorMessage(backend.address.failure)
    ensures backend.address.Ok? && backend.bill.Fail? ==>
      HandleSubmit(user, cart, form, backend).error == ErrorMessage(backend.bill.failure)
    ensures backend.address.Ok? && backend.bill.Ok? && !IdTruthy(backend.bill.id_key) ==>
      HandleSubmit(user, cart, form, backend).error == NoBillMessage
    ensures backend.address.Ok? && backend.bill.Ok? && IdTruthy(backend.bill.id_key) && backend.order.Fail? ==>
      HandleSubmit(user, cart, form, backend).error == ErrorMessage(backend.order.failure)
    ensures (backend.address.Ok? && backend.bill.Ok? && IdTruthy(backend.bill.id_key) && backend.order.Ok?
             && !IdTruthy(backend.order.id_key)) ==>
      HandleSubmit(user, cart, form, backend).error == NoOrderMessage
    ensures AllStepsSucceed(user, backend, 0) && !AllStepsSucceed(user, backend, |cart|) ==>
      exists i :: 0 <= i < |cart| && backend.detail(i).Fail? &&
        HandleSubmit(user, cart, form, backend).error == ErrorMessage(backend.detail(i).failure)
  {
    var r := HandleSubmit(user, cart, form, backend);
    if AllStepsSucceed(user, backend, 0) && !AllStepsSucceed(user, backend, |cart|) {
      var i := FirstDetailFailure(backend.detail, 0, |cart|).value;
      assert r.error == ErrorMessage(backend.detail(i).failure);
    }
  }

  /**
   * A worked submission: two lines (price 10 times 2, price 5 times 1) total 25;
   * with every step succeeding, one address, one bill and one order carry
   * that total, two details carry the returned order id, and the cart is
   * emptied. When the bill call rejects instead, nothing after it is sent
   * and both lines stay in the cart.
   */
  lemma TwoLineExample()
    ensures
      var a := Product(1, "A", 10, 5, 1, None);
      var b := Product(2, "B", 5, 5, 2, None);
      var cart := [CartItem(a, 2), CartItem(b, 1)];
      var user := Some(User(Some(7), "c@example.com", None));
      var form := CheckoutForm("Calle", "12", "Rosario", 2);
      var ok := Backend(Ok(None), Ok(Some(11)), Ok(Some(12)), (i: nat) => Ok(None));
      var billDown := Backend(Ok(None), Fail(Failure("", "", "Network Error")), Ok(Some(12)), (i: nat) => Ok(None));
      && HandleSubmit(user, cart, form, ok) == Submission(
           [CreateAddress("Calle", "12", "Rosario", 7), CreateBill(25, 2, 7), CreateOrder(25, 3, 1, 7, 11),
            CreateOrderDetail(2, 12, 1), CreateOrderDetail(1, 12, 2)],
           [], "", Some(SuccessPath), false)
      && HandleSubmit(user, cart, form, billDown) == Submission(
           [CreateAddress("Calle", "12", "Rosario", 7), CreateBill(25, 2, 7)],
           cart, "Network Error", None, false)
  {
    var a := Product(1, "A", 10, 5, 1, None);
    var b := Product(2, "B", 5, 5, 2, None);
    var cart := [CartItem(a, 2), CartItem(b, 1)];
    assert cart[..1] == [CartItem(a, 2)];
    assert cart[..1][..0] == [];
    assert SumBy(cart[..1], Amount) == 20;
    assert SumBy(cart, Amount) == 20 + 5;
  }
}

=== FILE: js.dfy ===
/**
 * The few JavaScript semantics the storefront's logic depends on: the
 * truncating remainder operator, ASCII lower-casing, `String.includes`,
 * and the truthiness of optional numbers and strings.
 */
module Js {
  import opened Wrappers

  /**
   * JavaScript `a % b` on integers: truncates toward zero, so the result takes
   * the dividend's sign. Against Dafny's Euclidean `%`: equal for a
   * non-negative dividend; for a negative one, 0 when `b` divides it and
   * `a % b - b` otherwise.
   */
  function Rem(a: int, b: int): (r: int)
    requires b > 0
    ensures a >= 0 ==> r == a % b
    ensures a < 0 ==> -b < r <= 0
    ensures a < 0 ==> r == (if a % b == 0 then 0 else a % b - b)
  {
    if a >= 0 then a % b
    else
      var q, m := (-a) / b, (-a) % b;
      assert -a == q * b + m;
      if m == 0 then
        assert a == (-q) * b + 0;
        DivModUnique(a, b, -q, 0);
        -m
      else
        assert a == (-q - 1) * b + (b - m);
        DivModUnique(a, b, -q - 1, b - m);
        -m
  }

  /** Euclidean division is unique: any `q`, `r` with `x == q * b + r` and `0 <= r < b` are the quotient and remainder. */
  lemma DivModUnique(x: int, b: int, q: int, r: int)
    requires b > 0 && 0 <= r < b && x == q * b + r
    ensures x / b == q && x % b == r
  {
    var d := x / b - q;
    assert x == (x / b) * b + x % b;
    assert d * b == r - x % b;
  }

  /** For non-negative dividends the remainder is periodic with period `b`. */
  lemma RemPeriodic(a: int, b: int)
    requires a >= 0 && b > 0
    ensures Rem(a + b, b) == Rem(a, b)
  {
    var q := a / b;
    assert a == q * b + a % b;
    assert a + b == (q + 1) * b + a % b;
    DivModUnique(a + b, b, q + 1, a % b);
  }

  /** Shifting a non-negative dividend by `k` periods leaves the remainder unchanged. */
  lemma {:induction false} RemShift(a: int, k: nat, b: int)
    requires a >= 0 && b > 0
    ensures Rem(a + k * b, b) == Rem(a, b)
    decreases k
  {
    if k > 0 {
      RemShift(a, k - 1, b);
      assert a + k * b == (a + (k - 1) * b) + b;
      RemPeriodic(a + (k - 1) * b, b);
    }
  }

  predicate IsUpper(c: char) {
    'A' <= c <= 'Z'
  }

  /** ASCII `toLowerCase` of one character. */
  function LowerChar(c: char): (r: char)
    ensures !IsUpper(r)
    ensures !IsUpper(c) ==> r == c
    ensures IsUpper(c) ==> r as int == c as int + 32
  {
    if IsUpper(c) then (c as int + 32) as char else c
  }

  /** ASCII `toLowerCase` of a string, character by character. */
  function Lower(s: string): (r: string)
    ensures |r| == |s|
    ensures forall i :: 0 <= i < |s| ==> r[i] == LowerChar(s[i])
  {
    seq(|s|, i requires 0 <= i < |s| => LowerChar(s[i]))
  }

  /** Lower-casing is idempotent. */
  lemma LowerIdempotent(s: string)
    ensures Lower(Lower(s)) == Lower(s)
  {
  }

  /** `t` occurs in `s` starting at position `i`. */
  predicate OccursAt(s: string, t: string, i: int) {
    0 <= i <= |s| - |t| && s[i..i + |t|] == t
  }

  /**
   * `s.includes(t)`: `t` occurs as a contiguous block of `s`. A string
   * includes itself, and also includes every prefix and suffix of itself;
   * nothing longer than `s` is included.
   */
  predicate Includes(s: string, t: string)
    ensures Includes(s, t) ==> |t| <= |s|
    ensures (exists k :: 0 <= k <= |s| && t == s[..k]) ==> Includes(s, t)
    ensures (exists k :: 0 <= k <= |s| && t == s[k..]) ==> Includes(s, t)
  {
    assert (exists k :: 0 <= k <= |s| && t == s[..k]) ==> OccursAt(s, t, 0) by {
      if exists k :: 0 <= k <= |s| && t == s[..k] {
        var k :| 0 <= k <= |s| && t == s[..k];
        assert s[0..0 + |t|] == s[..k];
      }
    }
    assert forall k :: 0 <= k <= |s| && t == s[k..] ==> OccursAt(s, t, k) by {
      forall k | 0 <= k <= |s| && t == s[k..]
        ensures OccursAt(s, t, k)
      {
        assert s[k..k + |t|] == s[k..];
      }
    }
    exists i | 0 <= i <= |s| - |t| :: OccursAt(s, t, i)
  }

  /** Every string includes the empty string. */
  lemma IncludesEmpty(s: string)
    ensures Includes(s, "")
  {
    assert OccursAt(s, "", 0);
  }

  /** An optional number as a JavaScript condition: `undefined` and `0` are falsy. */
  predicate IdTruthy(id: Option<int>) {
    id.Some? && id.value != 0
  }

  /** A string as a JavaScript condition: only the empty string is falsy. */
  predicate Truthy(s: string) {
    s != ""
  }

  /** `a || b` on strings: the first operand unless it is empty. */
  function OrElse(a: string, b: string): (r: string)
    ensures Truthy(a) ==> r == a
    ensures !Truthy(a) ==> r == b
  {
    if a != "" then a else b
  }
}

=== FILE: new_product.dfy ===
/** The admin's new-product form submission, src/app/admin/products/new/page.tsx. */
module NewProduct {
  import opened Wrappers
  import opened Js

  const RequiredMessage := "Por favor completa los campos obligatorios."
  const CreateFailedMessage := "Error al crear producto"
  const ProductsPath := "/admin/products"

  /** The form's text fields, as typed. */
  datatype ProductForm = ProductForm(name: string, price: string, stock: string, category_id: string, image_url: string)

  /**
   * The create request. The numeric fields are forwarded as the text the
   * source parses with `parseFloat` / `parseInt`; an empty image URL is sent
   * as undefined.
   */
  datatype ProductPayload = ProductPayload(
    name: string,
    priceText: string,
    stockText: string,
    categoryText: string,
    image_url: Option<string>)

  /** The outcome of `createProduct`: resolved, or rejected with an error message ("" when none). */
  datatype CreateOutcome = Created | Rejected(message: string)

  /** What a submission leaves behind. */
  datatype Submission = Submission(request: Option<ProductPayload>, error: string, loading: bool, navigate: Option<string>)

  predicate RequiredFilled(form: ProductForm) {
    form.name != "" && form.price != "" && form.stock != "" && form.category_id != ""
  }

  /**
   * `handleSubmit`: the error is cleared first; a missing required field
   * fails before any request; otherwise the product is created and the page
   * goes back to the list, or the error shows the rejection's message (or
   * the generic text). Loading ends whatever the outcome.
   */
  function HandleSubmit(form: ProductForm, outcome: CreateOutcome): (r: Submission)
    ensures !r.loading
    ensures !RequiredFilled(form) ==> r == Submission(None, RequiredMessage, false, None)
    ensures RequiredFilled(form) ==>
      r.request == Some(ProductPayload(form.name, form.price, form.stock, form.category_id,
                                       if form.image_url == "" then None else Some(form.image_url)))
    ensures r.navigate.Some? <==> RequiredFilled(form) && outcome.Created?
    ensures r.navigate.Some? ==> r.navigate.value == ProductsPath
    ensures r.error == "" <==> RequiredFilled(form) && outcome.Created?
    ensures RequiredFilled(form) && outcome.Rejected? ==>
      r.error == (if outcome.message != "" then outcome.message else CreateFailedMessage)
  {
    if !RequiredFilled(form) then Submission(None, RequiredMessage, false, None)
    else
      var image := if form.image_url != "" then Some(form.image_url) else None;
      var payload := ProductPayload(form.name, form.price, form.stock, form.category_id, image);
      match outcome
      case Created => Submission(Some(payload), "", false, Some(ProductsPath))
      case Rejected(m) => Submission(Some(payload), OrElse(m, CreateFailedMessage), false, None)
  }
}

=== FILE: orders.dfy ===
/**
 * The order-history page of src/app/profile/orders/page.tsx: status labels
 * and badge classes, the newest-first ordering of the fetched orders, the
 * load effect, and which orders offer a cancel button.
 */
module OrdersPage {
  import opened Wrappers
  import opened Js
  import opened Types

  const UnknownText := "Desconocido"

  /** `getStatusText`: the Spanish label of a status code, "Desconocido" for any other number. */
  function StatusText(status: int): (text: string)
    ensures status == 1 ==> text == "Pendiente"
    ensures status == 2 ==> text == "En Proceso"
    ensures status == 3 ==> text == "Entregado"
    ensures status == 4 ==> text == "Cancelado"
    ensures text == UnknownText <==> StatusFromCode(status).None?
  {
    match StatusFromCode(status)
    case Some(Pending) => "Pendiente"
    case Some(InProgress) => "En Proceso"
    case Some(Delivered) => "Entregado"
    case Some(Canceled) => "Cancelado"
    case None => UnknownText
  }

  const PendingColor := "bg-yellow-100 text-yellow-800 border border-yellow-200 dark:bg-yellow-900/30 dark:text-yellow-300 dark:border-yellow-800"
  const InProgressColor := "bg-blue-100 text-blue-800 border border-blue-200 dark:bg-blue-900/30 dark:text-blue-300 dark:border-blue-800"
  const DeliveredColor := "bg-green-100 text-green-800 border border-green-200 dark:bg-green-900/30 dark:text-green-300 dark:border-green-800"
  const CanceledColor := "bg-red-100 text-red-800 border border-red-200 dark:bg-red-900/30 dark:text-red-300 dark:border-red-800"
  const DefaultColor := "bg-gray-100 text-gray-800 border border-gray-200 dark:bg-gray-900/30 dark:text-gray-300 dark:border-gray-800"

  /** `getStatusColor`: the badge classes of a status code, gray for any other number. */
  function StatusColor(status: int): (classes: string)
    ensures classes == DefaultColor <==> StatusFromCode(status).None?
  {
    match StatusFromCode(status)
    case Some(Pending) => PendingColor
    case Some(InProgress) => InProgressColor
    case Some(Delivered) => DeliveredColor
    case Some(Canceled) => CanceledColor
    case None => DefaultColor
  }

  /** Both mappings tell the four statuses apart: different codes get different labels and classes. */
  lemma StatusPresentationInjective(a: int, b: int)
    requires 1 <= a <= 4 && 1 <= b <= 4 && a != b
    ensures StatusText(a) != StatusText(b)
    ensures StatusColor(a) != StatusColor(b)
  {
    // the colour names (yellow, blue, green, red) differ in length, and each occurs six times
    assert |PendingColor| != |InProgressColor| && |PendingColor| != |DeliveredColor| && |PendingColor| != |CanceledColor|;
    assert |InProgressColor| != |DeliveredColor| && |InProgressColor| != |CanceledColor| && |DeliveredColor| != |CanceledColor|;
  }

  /** Dates never increase along the list. */
  predicate NewestFirst(orders: seq<Order>) {
    forall i, j :: 0 <= i < j < |orders| ==> orders[i].date >= orders[j].date
  }

  /** Places `o` after every order at least as recent, so equal dates keep their arrival order. */
  function Insert(o: Order, sorted: seq<Order>): (r: seq<Order>)
    requires NewestFirst(sorted)
    ensures NewestFirst(r)
    ensures multiset(r) == multiset(sorted) + multiset{o}
    ensures |r| > 0 && (r[0] == o || (|sorted| > 0 && r[0] == sorted[0]))
    decreases |sorted|
  {
    if |sorted| == 0 then [o]
    else if o.date > sorted[0].date then [o] + sorted
    else
      var rest := Insert(o, sorted[1..]);
      assert sorted == [sorted[0]] + sorted[1..];
      [sorted[0]] + rest
  }

  /**
   * `data.sort((a, b) => dateOf(b) - dateOf(a))`: a permutation of the fetched
   * orders, newest first.
   */
  function SortNewestFirst(orders: seq<Order>): (r: seq<Order>)
    ensures NewestFirst(r)
    ensures multiset(r) == multiset(orders)
    ensures |r| == |orders|
    decreases |orders|
  {
    if |orders| == 0 then []
    else
      var init, last := orders[..|orders| - 1], orders[|orders| - 1];
      assert orders == init + [last];
      assert multiset(orders) == multiset(init) + multiset{last};
      var sortedInit := SortNewestFirst(init);
      Insert(last, sortedInit)
  }

  /** The page's state. */
  datatype OrdersState = OrdersState(orders: seq<Order>, loading: bool, navigate: Option<string>)

  /**
   * The load effect. Nothing happens while authentication loads; without a
   * user the page redirects to the login page. With a user carrying a client
   * id, a successful fetch replaces the list by its newest-first ordering; a
   * failed fetch, or a user without an id, keeps the list. Loading ends
   * whenever `loadOrders` runs.
   */
  function LoadEffect(state: OrdersState, authLoading: bool, user: Option<User>, fetched: Option<seq<Order>>): (s: OrdersState)
    ensures authLoading ==> s == state
    ensures !authLoading && user.None? ==> s == state.(navigate := Some("/login"))
    ensures !authLoading && user.Some? ==> !s.loading && s.navigate == state.navigate
    ensures !authLoading && user.Some? && IdTruthy(user.value.id_key) && fetched.Some? ==>
      NewestFirst(s.orders) && multiset(s.orders) == multiset(fetched.value)
    ensures !(user.Some? && IdTruthy(user.value.id_key) && fetched.Some?) ==> s.orders == state.orders
  {
    if authLoading then state
    else if user.None? then state.(navigate := Some("/login"))
    else if IdTruthy(user.value.id_key) && fetched.Some? then
      state.(orders := SortNewestFirst(fetched.value), loading := false)
    else state.(loading := false)
  }

  /** The cancel button is rendered exactly for pending orders. */
  function ShowsCancel(order: Order): (shown: bool)
    ensures shown <==> StatusFromCode(order.status) == Some(Pending)
  {
    order.status == Pending.Code()
  }
}

=== FILE: product_card.dfy ===
/** The product tile of src/components/ProductCard.tsx: its placeholder photo and its out-of-stock badge. */
module ProductCard {
  import opened Js
  import opened Types

  const PlaceholderImages := [
    "https://images.unsplash.com/photo-1523381210434-271e8be1f52b?ixlib=rb-4.0.3&auto=format&fit=crop&w=1770&q=80",
    "https://images.unsplash.com/photo-1521572163474-6864f9cf17ab?ixlib=rb-4.0.3&auto=format&fit=crop&w=1760&q=80",
    "https://images.unsplash.com/photo-1620799140408-edc6dcb6d633?ixlib=rb-4.0.3&auto=format&fit=crop&w=1572&q=80",
    "https://images.unsplash.com/photo-1589310243389-96a5483213a8?ixlib=rb-4.0.3&auto=format&fit=crop&w=1587&q=80"]

  /**
   * `placeholderImages[category_id % 4] || placeholderImages[0]`. A negative
   * category id gives a non-positive JavaScript remainder; a negative one
   * reads `undefined` and falls back to the first photo.
   */
  function ImageSrc(categoryId: int): (src: string)
    ensures categoryId >= 0 ==> src == PlaceholderImages[categoryId % 4]
    ensures categoryId < 0 ==> src == PlaceholderImages[0]
    ensures src in PlaceholderImages
  {
    var k := Rem(categoryId, |PlaceholderImages|);
    if k >= 0 then PlaceholderImages[k] else PlaceholderImages[0]
  }

  /** Non-negative category ids that differ by a multiple of four get the same photo. */
  lemma {:induction false} ImageSrcPeriodic(categoryId: int, k: nat)
    requires categoryId >= 0
    ensures ImageSrc(categoryId + 4 * k) == ImageSrc(categoryId)
  {
    ModFourShift(categoryId, k);
  }

  /** Adding a multiple of four keeps the remainder by four. */
  lemma ModFourShift(c: int, k: nat)
    ensures (c + 4 * k) % 4 == c % 4
  {
    DivModUnique(c + 4 * k, 4, c / 4 + k, c % 4);
  }

  /** The "Agotado" badge: shown exactly when the stock is zero. */
  function ShowsOutOfStock(product: Product): (shown: bool)
    ensures shown <==> product.stock == 0
  {
    product.stock == 0
  }
}

=== FILE: product_service.dfy ===
/**
 * `getPlaceholderImage` of src/services/productService.ts: a deterministic
 * stock photo chosen from a per-category collection by a numeric index.
 */
module ProductService {
  import opened Wrappers
  import opened Js

  const Tops := [
    "https://images.unsplash.com/photo-1521572163474-6864f9cf17ab?auto=format&fit=crop&w=800&q=80",
    "https://images.unsplash.com/photo-1576566588028-4147f3842f27?auto=format&fit=crop&w=800&q=80",
    "https://images.unsplash.com/photo-1618354691438-675e9549558d?auto=format&fit=crop&w=800&q=80",
    "https://images.unsplash.com/photo-1556905055-8f358a7a47b2?auto=format&fit=crop&w=800&q=80"]
  const Bottoms := [
    "https://images.unsplash.com/photo-1542272617-08f08630329e?auto=format&fit=crop&w=800&q=80",
    "https://images.unsplash.com/photo-1624378439575-d8705ad7ae80?auto=format&fit=crop&w=800&q=80",
    "https://images.unsplash.com/photo-1584370848010-d7d6371f35a7?auto=format&fit=crop&w=800&q=80"]
  const Coats := [
    "https://images.unsplash.com/photo-1591047139829-d91aecb6caea?auto=format&fit=crop&w=800&q=80",
    "https://images.unsplash.com/photo-1520975661595-64536ef8ad7e?auto=format&fit=crop&w=800&q=80",
    "https://images.unsplash.com/photo-1592878904946-b3cd8ae243d0?auto=format&fit=crop&w=800&q=80"]
  const Accessories := [
    "https://images.unsplash.com/photo-1584917865442-de89df76afd3?auto=format&fit=crop&w=800&q=80",
    "https://images.unsplash.com/photo-1572635196237-14b3f281503f?auto=format&fit=crop&w=800&q=80",
    "https://images.unsplash.com/photo-1627123424574-18bd75a32652?auto=format&fit=crop&w=800&q=80"]
  const Shoes := [
    "https://images.unsplash.com/photo-1560769629-975e13f51863?auto=format&fit=crop&w=800&q=80",
    "https://images.unsplash.com/photo-1595950653106-6c9ebd614d3a?auto=format&fit=crop&w=800&q=80",
    "https://images.unsplash.com/photo-1549298916-b41d501d3772?auto=format&fit=crop&w=800&q=80"]

  /** The `collections` record: categories 1 to 5 have photos, no other key does. */
  function Collection(categoryId: int): Option<seq<string>> {
    if categoryId == 1 then Some(Tops)
    else if categoryId == 2 then Some(Bottoms)
    else if categoryId == 3 then Some(Coats)
    else if categoryId == 4 then Some(Accessories)
    else if categoryId == 5 then Some(Shoes)
    else None
  }

  /**
   * `collections[categoryId || 1] || collections[1]`: a missing or zero
   * category means category 1, and a category without photos falls back to
   * category 1's.
   */
  function SelectedImages(categoryId: Option<int>): (images: seq<string>)
    ensures !IdTruthy(categoryId) ==> images == Tops
    ensures IdTruthy(categoryId) && Collection(categoryId.value).None? ==> images == Tops
    ensures IdTruthy(categoryId) && Collection(categoryId.value).Some? ==> images == Collection(categoryId.value).value
    ensures |images| == if IdTruthy(categoryId) && 2 <= categoryId.value <= 5 then 3 else 4
  {
    var catId := if IdTruthy(categoryId) then categoryId.value else 1;
    Collection(catId).GetOr(Tops)
  }

  /**
   * `images[index % images.length]`. JavaScript's remainder is negative for a
   * negative index not divisible by the length, and such an index reads
   * `undefined`; `-0` reads the first photo.
   */
  function PlaceholderImage(categoryId: Option<int>, index: int): (image: Option<string>)
    ensures var images := SelectedImages(categoryId);
      index >= 0 ==> image == Some(images[index % |images|])
    ensures var images := SelectedImages(categoryId);
      index < 0 ==> (image.Some? <==> index % |images| == 0)
    ensures var images := SelectedImages(categoryId);
      image.Some? ==> image.value == images[index % |images|]
    ensures image.Some? ==> image.value in SelectedImages(categoryId)
  {
    var images := SelectedImages(categoryId);
    var k := Rem(index, |images|);
    if k >= 0 then Some(images[k]) else None
  }

  /**
   * For non-negative indexes the choice repeats with the collection's size as
   * its period: 4 for category 1 (and the fallbacks), 3 for categories 2 to 5.
   */
  lemma {:induction false} PlaceholderPeriodic(categoryId: Option<int>, index: int, k: nat)
    requires index >= 0
    ensures PlaceholderImage(categoryId, index + k * |SelectedImages(categoryId)|) == PlaceholderImage(categoryId, index)
  {
    var n := |SelectedImages(categoryId)|;
    assert index + k * n >= 0;
    RemShift(index, k, n);
  }
}

=== FILE: review_card.dfy ===
/** One review as src/components/ReviewCard.tsx shows it: ownership, stars, avatar initial and name. */
module ReviewCard {
  import opened Wrappers
  import opened Types

  /** `isOwner`: a user is signed in and the review's client id is that user's id. */
  function IsOwner(user: Option<User>, review: Review): (owner: bool)
    ensures owner <==> user.Some? && user.value.id_key == Some(review.client_id)
  {
    user.Some? && user.value.id_key.Some? && user.value.id_key.value == review.client_id
  }

  /** The owner controls: edit hands over the review, delete its id. */
  datatype Controls = NoControls | OwnerControls(editTarget: Review, deleteId: int)

  function ControlsOf(user: Option<User>, review: Review): (c: Controls)
    ensures c.OwnerControls? <==> IsOwner(user, review)
    ensures c.OwnerControls? ==> c.editTarget == review && c.deleteId == review.id_key
  {
    if IsOwner(user, review) then OwnerControls(review, review.id_key) else NoControls
  }

  /** `renderStars`: five stars, star `i` (from 0) filled exactly when `i < rating`. */
  function Stars(rating: int): (stars: seq<bool>)
    ensures |stars| == 5
    ensures forall i :: 0 <= i < 5 ==> (stars[i] <==> i < rating)
  {
    seq(5, i => i < rating)
  }

  /** The number of filled stars. */
  function CountFilled(stars: seq<bool>): nat
    decreases |stars|
  {
    if |stars| == 0 then 0 else CountFilled(stars[..|stars| - 1]) + (if stars[|stars| - 1] then 1 else 0)
  }

  /** Filled stars form a prefix: the first `k` stars are filled and no other. */
  lemma {:induction false} PrefixCount(stars: seq<bool>, k: int)
    requires 0 <= k <= |stars|
    requires forall i :: 0 <= i < |stars| ==> (stars[i] <==> i < k)
    ensures CountFilled(stars) == k
    decreases |stars|
  {
    var n := |stars|;
    if n > 0 {
      if k == n {
        PrefixCount(stars[..n - 1], k - 1);
      } else {
        PrefixCount(stars[..n - 1], k);
      }
    }
  }

  /** A rating between 0 and 5 fills exactly that many stars; lower fills none, higher fills all five. */
  lemma FilledStars(rating: int)
    ensures CountFilled(Stars(rating)) == if rating < 0 then 0 else if rating > 5 then 5 else rating
  {
    var k := if rating < 0 then 0 else if rating > 5 then 5 else rating;
    PrefixCount(Stars(rating), k);
  }

  /** The avatar letter: the first character of the client's name, or 'U' when there is none. */
  function Initial(review: Review): (c: char)
    ensures review.client.Some? && review.client.value.name.Some? && review.client.value.name.value != ""
      ==> c == review.client.value.name.value[0]
    ensures !(review.client.Some? && review.client.value.name.Some? && review.client.value.name.value != "")
      ==> c == 'U'
  {
    match review.client
    case Some(ReviewClient(Some(name))) => if name != "" then name[0] else 'U'
    case _ => 'U'
  }

  /** The displayed name: the client's name, or "Usuario" when there is none. */
  function DisplayName(review: Review): (name: string)
    ensures name != ""
    ensures review.client.Some? && review.client.value.name.Some? && review.client.value.name.value != ""
      ==> name == review.client.value.name.value
    ensures !(review.client.Some? && review.client.value.name.Some? && review.client.value.name.value != "")
      ==> name == "Usuario"
  {
    match review.client
    case Some(ReviewClient(Some(n))) => if n != "" then n else "Usuario"
    case _ => "Usuario"
  }

  /** The avatar letter is the displayed name's first letter. */
  lemma InitialOfDisplayName(review: Review)
    ensures Initial(review) == DisplayName(review)[0]
  {
  }
}

=== FILE: review_form.dfy ===
/** The star-rating form of src/components/ReviewForm.tsx. */
module ReviewForm {
  import opened Wrappers
  import opened Types

  /** The value of one of the five star buttons. */
  type StarValue = s: int | 1 <= s <= 5 witness 1

  datatype FormState = FormState(rating: int, comment: string, hoverRating: int)

  /** The first render: five stars, an empty comment, no hover. */
  const InitialForm := FormState(5, "", 0)

  /** The effect on `initialData`: an edited review's rating and comment overwrite the form's. */
  function LoadInitialData(s: FormState, initialData: Option<Review>): (s': FormState)
    ensures initialData.Some? ==> s'.rating == initialData.value.rating && s'.comment == initialData.value.comment
    ensures initialData.None? ==> s' == s
    ensures s'.hoverRating == s.hoverRating
  {
    match initialData
    case Some(r) => s.(rating := r.rating, comment := r.comment)
    case None => s
  }

  /** `hoverRating || rating`: the hovered star while hovering, else the chosen rating. */
  function ShownRating(s: FormState): (shown: int)
    ensures shown == s.rating || shown == s.hoverRating
    ensures s.hoverRating == 0 ==> shown == s.rating
    ensures Valid(s) ==> 1 <= shown <= 5
  {
    if s.hoverRating != 0 then s.hoverRating else s.rating
  }

  /** The five stars for values 1 to 5: star `v` is filled when the shown rating reaches `v`. */
  function FormStars(s: FormState): (stars: seq<bool>)
    ensures |stars| == 5
    ensures forall i :: 0 <= i < 5 ==> (stars[i] <==> ShownRating(s) >= i + 1)
  {
    seq(5, i => ShownRating(s) >= i + 1)
  }

  datatype FormEvent = Enter(star: StarValue) | Leave | Click(star: StarValue) | Type(comment: string)

  /** The buttons' handlers and the text area's. */
  function Handle(s: FormState, e: FormEvent): (s': FormState)
    ensures e.Click? ==> s' == s.(rating := e.star)
    ensures e.Enter? ==> s' == s.(hoverRating := e.star)
    ensures e.Leave? ==> s' == s.(hoverRating := 0)
    ensures e.Type? ==> s' == s.(comment := e.comment)
  {
    match e
    case Enter(v) => s.(hoverRating := v)
    case Leave => s.(hoverRating := 0)
    case Click(v) => s.(rating := v)
    case Type(c) => s.(comment := c)
  }

  /** A rating between 1 and 5 and a hover that is a star or none. */
  predicate Valid(s: FormState) {
    1 <= s.rating <= 5 && 0 <= s.hoverRating <= 5
  }

  /** From a valid form, any run of events keeps the rating between 1 and 5. */
  function Run(s: FormState, events: seq<FormEvent>): (s': FormState)
    requires Valid(s)
    ensures Valid(s')
    ensures (forall i :: 0 <= i < |events| ==> !events[i].Click?) ==> s'.rating == s.rating
    decreases |events|
  {
    if |events| == 0 then s else Run(Handle(s, events[0]), events[1..])
  }

  /** In a valid form the filled stars are exactly the first `ShownRating` ones, between 1 and 5 of them. */
  lemma ValidFormStars(s: FormState)
    requires Valid(s)
    ensures 1 <= ShownRating(s) <= 5
    ensures forall i :: 0 <= i < 5 ==> (FormStars(s)[i] <==> i < ShownRating(s))
  {
  }

  /** A fresh form is valid and shows all five stars lit. */
  lemma InitialFormShowsFive()
    ensures Valid(InitialForm) && ShownRating(InitialForm) == 5
    ensures forall i :: 0 <= i < 5 ==> FormStars(InitialForm)[i]
  {
  }

  /** `handleSubmit`: exactly the current rating and comment. */
  function Submit(s: FormState): (data: ReviewInput)
    ensures data.rating == s.rating && data.comment == s.comment
  {
    ReviewInput(s.rating, s.comment)
  }
}

=== FILE: reviews_section.dfy ===
/**
 * The review list of src/components/ReviewsSection.tsx: creating, updating
 * and deleting reviews, opening and closing the form, and the average
 * rating. Backend calls are caller-supplied outcomes.
 */
module ReviewsSection {
  import opened Wrappers
  import opened Types

  datatype SectionState = SectionState(reviews: seq<Review>, showForm: bool, editing: Option<Review>)

  /** The requests the section sends. A create carries the user's id as it is, possibly undefined. */
  datatype ReviewRequest =
    | CreateReview(rating: int, comment: string, product_id: int, author: Option<int>) // author is sent as `client_id`
    | UpdateReview(id: int, rating: int, comment: string, product_id: int, client_id: int)
    | DeleteReview(id: int)

  /** The state after a handler, the request it sent (if any), and whether its failure alert showed. */
  datatype Effect = Effect(state: SectionState, request: Option<ReviewRequest>, alerted: bool)

  /**
   * `handleCreate`: a no-op without a user. Otherwise the create request is
   * sent; on success the created review, shown with the user as its client,
   * is put first and the form hides; on failure the list is kept and the
   * alert shows.
   */
  function HandleCreate(s: SectionState, user: Option<User>, productId: int, data: ReviewInput,
                        created: Option<Review>): (e: Effect)
    ensures user.None? ==> e == Effect(s, None, false)
    ensures user.Some? ==>
      e.request == Some(CreateReview(data.rating, data.comment, productId, user.value.id_key))
    ensures user.Some? && created.Some? ==>
      && |e.state.reviews| == |s.reviews| + 1
      && e.state.reviews[0] == created.value.(client := Some(ReviewClient(user.value.name)))
      && e.state.reviews[1..] == s.reviews
      && e.state.editing == s.editing
      && !e.state.showForm && !e.alerted
    ensures user.Some? && created.None? ==> e.state == s && e.alerted
  {
    if user.None? then Effect(s, None, false)
    else
      var request := CreateReview(data.rating, data.comment, productId, user.value.id_key);
      match created
      case Some(c) =>
        var shown := c.(client := Some(ReviewClient(user.value.name)));
        Effect(s.(reviews := [shown] + s.reviews, showForm := false), Some(request), false)
      case None => Effect(s, Some(request), true)
  }

  /**
   * `handleUpdate`: a no-op unless a review is being edited. The update keeps
   * that review's product and client. On success the form closes and the
   * list is reloaded (a failed reload keeps it); on failure the alert shows.
   */
  function HandleUpdate(s: SectionState, data: ReviewInput, updated: bool, reloaded: Option<seq<Review>>): (e: Effect)
    ensures s.editing.None? ==> e == Effect(s, None, false)
    ensures s.editing.Some? ==>
      var edited := s.editing.value;
      e.request == Some(UpdateReview(edited.id_key, data.rating, data.comment, edited.product_id, edited.client_id))
    ensures s.editing.Some? && updated ==>
      && e.state.editing.None? && !e.state.showForm && !e.alerted
      && e.state.reviews == reloaded.GetOr(s.reviews)
    ensures s.editing.Some? && !updated ==> e.state == s && e.alerted
  {
    match s.editing
    case None => Effect(s, None, false)
    case Some(r) =>
      var request := UpdateReview(r.id_key, data.rating, data.comment, r.product_id, r.client_id);
      if updated then
        Effect(SectionState(reloaded.GetOr(s.reviews), false, None), Some(request), false)
      else Effect(s, Some(request), true)
  }

  /** The form's `onSubmit`: update while a review is being edited, create otherwise. */
  function OnSubmit(s: SectionState, user: Option<User>, productId: int, data: ReviewInput,
                    created: Option<Review>, updated: bool, reloaded: Option<seq<Review>>): (e: Effect)
    ensures s.editing.Some? ==> e == HandleUpdate(s, data, updated, reloaded)
    ensures s.editing.None? ==> e == HandleCreate(s, user, productId, data, created)
    ensures e.request.Some? ==> (e.request.value.UpdateReview? <==> s.editing.Some?)
  {
    if s.editing.Some? then HandleUpdate(s, data, updated, reloaded)
    else HandleCreate(s, user, productId, data, created)
  }

  /** `handleDelete`: after confirmation the delete is sent; success reloads the list, failure alerts. */
  function HandleDelete(s: SectionState, id: int, confirmed: bool, deleted: bool, reloaded: Option<seq<Review>>): (e: Effect)
    ensures !confirmed ==> e == Effect(s, None, false)
    ensures confirmed ==> e.request == Some(DeleteReview(id))
    ensures confirmed && deleted ==> e.state == s.(reviews := reloaded.GetOr(s.reviews)) && !e.alerted
    ensures confirmed && !deleted ==> e.state == s && e.alerted
  {
    if !confirmed then Effect(s, None, false)
    else if deleted then Effect(s.(reviews := reloaded.GetOr(s.reviews)), Some(DeleteReview(id)), false)
    else Effect(s, Some(DeleteReview(id)), true)
  }

  /** `openEditForm`: show the form, editing the given review. */
  function OpenEditForm(s: SectionState, review: Review): (s': SectionState)
    ensures s'.showForm && s'.editing == Some(review) && s'.reviews == s.reviews
  {
    s.(showForm := true, editing := Some(review))
  }

  /** `closeForm`: hide the form and forget the review being edited. */
  function CloseForm(s: SectionState): (s': SectionState)
    ensures !s'.showForm && s'.editing.None? && s'.reviews == s.reviews
  {
    s.(showForm := false, editing := None)
  }

  /** The sum of the ratings, folded from the left like `reduce`. */
  function SumRatings(reviews: seq<Review>): int
    decreases |reviews|
  {
    if |reviews| == 0 then 0 else SumRatings(reviews[..|reviews| - 1]) + reviews[|reviews| - 1].rating
  }

  /** `averageRating`: 0 without reviews, otherwise the sum of the ratings over their number. */
  function AverageRating(reviews: seq<Review>): (avg: real)
    ensures |reviews| == 0 ==> avg == 0.0
    ensures |reviews| > 0 ==> avg * |reviews| as real == SumRatings(reviews) as real
  {
    if |reviews| > 0 then SumRatings(reviews) as real / |reviews| as real else 0.0
  }

  /** Ratings between `lo` and `hi` sum to between `lo` and `hi` times their number. */
  lemma {:induction false} SumRatingsBounds(reviews: seq<Review>, lo: int, hi: int)
    requires forall i :: 0 <= i < |reviews| ==> lo <= reviews[i].rating <= hi
    ensures lo * |reviews| <= SumRatings(reviews) <= hi * |reviews|
    decreases |reviews|
  {
    if |reviews| > 0 {
      var n := |reviews| - 1;
      SumRatingsBounds(reviews[..n], lo, hi);
      assert lo * |reviews| == lo * n + lo;
      assert hi * |reviews| == hi * n + hi;
    }
  }

  /** With every rating between 1 and 5, a non-empty list averages between 1 and 5. */
  lemma AverageRatingBounds(reviews: seq<Review>)
    requires |reviews| > 0
    requires forall i :: 0 <= i < |reviews| ==> 1 <= reviews[i].rating <= 5
    ensures 1.0 <= AverageRating(reviews) <= 5.0
  {
    SumRatingsBounds(reviews, 1, 5);
    var n := |reviews| as real;
    var sum := SumRatings(reviews) as real;
    assert n <= sum <= 5.0 * n;
    var q := AverageRating(reviews);
    assert q * n == sum;
    assert (q - 1.0) * n == sum - n;
    assert (5.0 - q) * n == 5.0 * n - sum;
    SignOfProduct(q - 1.0, n);
    SignOfProduct(5.0 - q, n);
  }

  /** A product that is non-negative with a positive factor has a non-negative other factor. */
  lemma SignOfProduct(x: real, n: real)
    requires n > 0.0 && x * n >= 0.0
    ensures x >= 0.0
  {
  }
}

=== FILE: seqs.dfy ===
/** Order-preserving sub-sequences and `Array.prototype.filter` on sequences. */
module Seqs {

  /**
   * `a` is obtained from `b` by deleting elements, keeping the order of the rest.
   * Defined by matching the last element, which is greedy and therefore complete.
   */
  predicate IsSubsequence<T(==)>(a: seq<T>, b: seq<T>)
    decreases |b|
  {
    if |a| == 0 then true
    else if |b| == 0 then false
    else if a[|a| - 1] == b[|b| - 1] then IsSubsequence(a[..|a| - 1], b[..|b| - 1])
    else IsSubsequence(a, b[..|b| - 1])
  }

  /** Every sequence is a sub-sequence of itself. */
  lemma {:induction false} SubsequenceReflexive<T>(s: seq<T>)
    ensures IsSubsequence(s, s)
    decreases |s|
  {
    if |s| > 0 {
      SubsequenceReflexive(s[..|s| - 1]);
    }
  }

  /** Every element of a sub-sequence is an element of the sequence it was taken from. */
  lemma {:induction false} SubsequenceMembers<T>(a: seq<T>, b: seq<T>)
    requires IsSubsequence(a, b)
    ensures forall x :: x in a ==> x in b
    decreases |b|
  {
    if |a| > 0 && |b| > 0 {
      var a', b' := a[..|a| - 1], b[..|b| - 1];
      assert b == b' + [b[|b| - 1]];
      if a[|a| - 1] == b[|b| - 1] {
        SubsequenceMembers(a', b');
        assert a == a' + [a[|a| - 1]];
      } else {
        SubsequenceMembers(a, b');
      }
    }
  }

  /**
   * `s.filter(keep)`: the elements satisfying `keep`, in their original order,
   * each with its original multiplicity. Folded from the left like the
   * JavaScript loop, which is why the recursion peels off the last element.
   */
  function Filter<T(==,!new)>(s: seq<T>, keep: T -> bool): (r: seq<T>)
    ensures |r| <= |s|
    ensures forall x :: x in r <==> x in s && keep(x)
    ensures forall x :: multiset(r)[x] == if keep(x) then multiset(s)[x] else 0
    ensures IsSubsequence(r, s)
    decreases |s|
  {
    if |s| == 0 then []
    else
      var init, last := s[..|s| - 1], s[|s| - 1];
      assert s == init + [last];
      var r := Filter(init, keep);
      if keep(last) then
        assert (r + [last])[..|r|] == r;
        r + [last]
      else
        assert |r| > 0 ==> r[|r| - 1] in r;
        r
  }

  /** Filtering with a predicate every element satisfies returns the sequence unchanged. */
  lemma {:induction false} FilterKeepsAll<T(!new)>(s: seq<T>, keep: T -> bool)
    requires forall x :: x in s ==> keep(x)
    ensures Filter(s, keep) == s
    decreases |s|
  {
    if |s| > 0 {
      assert s == s[..|s| - 1] + [s[|s| - 1]];
      FilterKeepsAll(s[..|s| - 1], keep);
    }
  }

  /** Two predicates that agree on every element of `s` filter it alike. */
  lemma {:induction false} FilterCongruent<T(!new)>(s: seq<T>, keep: T -> bool, keep': T -> bool)
    requires forall x :: x in s ==> keep(x) == keep'(x)
    ensures Filter(s, keep) == Filter(s, keep')
    decreases |s|
  {
    if |s| > 0 {
      assert s == s[..|s| - 1] + [s[|s| - 1]];
      FilterCongruent(s[..|s| - 1], keep, keep');
    }
  }
}

=== FILE: shop.dfy ===
/** The category filter of the shop page, src/app/shop/page.tsx. */
module Shop {
  import opened Wrappers
  import opened Js
  import opened Seqs
  import opened Types

  /** The filter callback: products of category `c`. */
  function InCategory(c: int): Product -> bool {
    (p: Product) => p.category_id == c
  }

  /**
   * `filteredProducts`: with no selected category, or the falsy category 0,
   * every product; otherwise exactly the products of the selected category,
   * in their original order.
   */
  function FilteredProducts(products: seq<Product>, selected: Option<int>): (r: seq<Product>)
    ensures !IdTruthy(selected) ==> r == products
    ensures IdTruthy(selected) ==>
      forall p :: p in r <==> p in products && p.category_id == selected.value
    ensures IdTruthy(selected) ==>
      forall p :: multiset(r)[p] == if p.category_id == selected.value then multiset(products)[p] else 0
    ensures IsSubsequence(r, products)
  {
    if IdTruthy(selected) then Filter(products, InCategory(selected.value))
    else
      SubsequenceReflexive(products);
      products
  }

  /** Selecting category 0 shows the same list as selecting nothing. */
  lemma ZeroCategoryShowsAll(products: seq<Product>)
    ensures FilteredProducts(products, Some(0)) == FilteredProducts(products, None) == products
  {
  }
}

=== FILE: theme.dfy ===
/**
 * The theme provider of src/context/ThemeContext.tsx as a state machine over
 * three events: mounting, choosing a theme, and a change of the operating
 * system's colour preference. Local storage is the optional `stored` value
 * under the key `theme`; the `dark` class on the document root is `darkClass`.
 */
module Theme {
  import opened Wrappers

  datatype Resolved = Light | Dark

  /** The provider's state together with what it writes to and reads from the page. */
  datatype ThemeState = ThemeState(
    theme: string,          // any string: the stored value is not validated
    resolved: Resolved,
    mounted: bool,
    stored: Option<string>, // localStorage entry `theme`
    darkClass: bool,        // whether the root element carries `dark`
    systemDark: bool)       // the `prefers-color-scheme: dark` media query

  /** `applyTheme`'s choice: dark for the dark theme, or for the system theme when the system prefers dark. */
  function Resolve(theme: string, systemDark: bool): (r: Resolved)
    ensures r == Dark <==> theme == "dark" || (theme == "system" && systemDark)
  {
    if theme == "dark" || (theme == "system" && systemDark) then Dark else Light
  }

  /** The persistence effect's target: the system theme removes the key, any other theme stores its name. */
  function Persisted(theme: string): (entry: Option<string>)
    ensures entry.None? <==> theme == "system"
    ensures entry.Some? ==> entry.value == theme
  {
    if theme == "system" then None else Some(theme)
  }

  /** The first render: theme `system`, resolved `light`, not mounted; storage and page untouched. */
  function Initial(stored: Option<string>, systemDark: bool): (s: ThemeState)
    ensures s.theme == "system" && s.resolved == Light && !s.mounted
    ensures s.stored == stored && !s.darkClass && s.systemDark == systemDark
  {
    ThemeState("system", Light, false, stored, false, systemDark)
  }

  /** The persistence and apply effects, which do nothing before mount. */
  function RunEffects(s: ThemeState): (s': ThemeState)
    ensures !s.mounted ==> s' == s
    ensures s.mounted ==> s'.stored == Persisted(s.theme) && s'.resolved == Resolve(s.theme, s.systemDark)
    ensures s'.theme == s.theme && s'.mounted == s.mounted && s'.systemDark == s.systemDark
  {
    if !s.mounted then s
    else
      var r := Resolve(s.theme, s.systemDark);
      s.(stored := Persisted(s.theme), resolved := r, darkClass := r == Dark)
  }

  /** The mount effect: a non-empty stored value becomes the theme as it is; then the provider is mounted. */
  function Mount(s: ThemeState): (s': ThemeState)
    ensures s'.mounted
    ensures !s.mounted && s.stored.Some? && s.stored.value != "" ==> s'.theme == s.stored.value
    ensures !s.mounted && (s.stored.None? || s.stored.value == "") ==> s'.theme == s.theme
  {
    if s.mounted then s
    else
      var theme := if s.stored.Some? && s.stored.value != "" then s.stored.value else s.theme;
      RunEffects(s.(theme := theme, mounted := true))
  }

  /** `setTheme(t)`: the new theme, persisted and applied once mounted. */
  function SetTheme(s: ThemeState, theme: string): (s': ThemeState)
    ensures s'.theme == theme
    ensures !s.mounted ==> s'.stored == s.stored && s'.resolved == s.resolved && s'.darkClass == s.darkClass
  {
    RunEffects(s.(theme := theme))
  }

  /**
   * The media-query listener, registered only once mounted: it re-applies the
   * theme only while the theme is `system`.
   */
  function SystemChange(s: ThemeState, systemDark: bool): (s': ThemeState)
    ensures s'.systemDark == systemDark && s'.theme == s.theme && s'.stored == s.stored
    ensures !(s.mounted && s.theme == "system") ==> s'.resolved == s.resolved && s'.darkClass == s.darkClass
    ensures s.mounted && s.theme == "system" ==> s'.resolved == Resolve("system", systemDark)
  {
    var s1 := s.(systemDark := systemDark);
    if s.mounted && s.theme == "system" then
      var r := Resolve(s.theme, systemDark);
      s1.(resolved := r, darkClass := r == Dark)
    else s1
  }

  datatype Event = MountEvent | Choose(theme: string) | SystemPreference(dark: bool)

  function Step(s: ThemeState, e: Event): ThemeState {
    match e
    case MountEvent => Mount(s)
    case Choose(t) => SetTheme(s, t)
    case SystemPreference(d) => SystemChange(s, d)
  }

  /**
   * What the provider maintains: before mount the page still shows light and
   * nothing dark is applied; after mount storage mirrors the theme and the
   * applied theme is the resolution of the theme against the current system
   * preference.
   */
  predicate Consistent(s: ThemeState) {
    && (!s.mounted ==> s.resolved == Light && !s.darkClass)
    && (s.mounted ==> s.stored == Persisted(s.theme)
                      && s.resolved == Resolve(s.theme, s.systemDark)
                      && s.darkClass == (s.resolved == Dark))
  }

  /** A theme other than `system` resolves the same whatever the system prefers. */
  lemma ExplicitThemeIgnoresSystem(theme: string, d: bool, d': bool)
    requires theme != "system"
    ensures Resolve(theme, d) == Resolve(theme, d')
  {
  }

  /** Every event keeps the provider consistent. */
  lemma StepConsistent(s: ThemeState, e: Event)
    requires Consistent(s)
    ensures Consistent(Step(s, e))
  {
    if e.SystemPreference? && s.mounted && s.theme != "system" {
      ExplicitThemeIgnoresSystem(s.theme, s.systemDark, e.dark);
    }
  }

  /** Any run of events from the first render leaves the provider consistent; storage is untouched until mount. */
  function Run(s: ThemeState, events: seq<Event>): (s': ThemeState)
    requires Consistent(s)
    ensures Consistent(s')
    ensures s.mounted ==> s'.mounted
    ensures !s'.mounted ==> s'.stored == s.stored
    decreases |events|
  {
    if |events| == 0 then s
    else
      StepConsistent(s, events[0]);
      var next := Step(s, events[0]);
      assert !next.mounted ==> next.stored == s.stored;
      assert s.mounted ==> next.mounted;
      Run(next, events[1..])
  }

  /** The first render is consistent, so every reachable state is. */
  lemma InitialConsistent(stored: Option<string>, systemDark: bool)
    ensures Consistent(Initial(stored, systemDark))
  {
  }
}

=== FILE: types.dfy ===
/**
 * The storefront's entity records and the two wire enumerations, as declared
 * in src/types/index.ts. Prices and totals are integers in the smallest
 * currency unit; dates are integer timestamps.
 */
module Types {
  import opened Wrappers

  datatype Category = Category(id_key: int, name: string)

  datatype Product = Product(
    id_key: int,
    name: string,
    price: int,
    stock: int,
    category_id: int,
    category: Option<Category>)

  datatype Address = Address(id_key: int, street: string, number: string, city: string, params: Option<string>)

  /** How an order reaches the client; the wire carries the integer code. */
  datatype DeliveryMethod = DriveThru | OnHand | HomeDelivery {

    function Code(): (c: int)
      ensures 1 <= c <= 3
      ensures this == DriveThru <==> c == 1
      ensures this == OnHand <==> c == 2
    {
      match this
      case DriveThru => 1
      case OnHand => 2
      case HomeDelivery => 3
    }
  }

  /** The life cycle of an order; the wire carries the integer code. */
  datatype Status = Pending | InProgress | Delivered | Canceled {

    function Code(): (c: int)
      ensures 1 <= c <= 4
      ensures this == Pending <==> c == 1
      ensures this == InProgress <==> c == 2
      ensures this == Delivered <==> c == 3
    {
      match this
      case Pending => 1
      case InProgress => 2
      case Delivered => 3
      case Canceled => 4
    }
  }

  /** The delivery method a wire code denotes, if any. */
  function DeliveryFromCode(c: int): (r: Option<DeliveryMethod>)
    ensures r.Some? <==> 1 <= c <= 3
    ensures r.Some? ==> r.value.Code() == c
  {
    if c == 1 then Some(DriveThru)
    else if c == 2 then Some(OnHand)
    else if c == 3 then Some(HomeDelivery)
    else None
  }

  /** The status a wire code denotes, if any. */
  function StatusFromCode(c: int): (r: Option<Status>)
    ensures r.Some? <==> 1 <= c <= 4
    ensures r.Some? ==> r.value.Code() == c
  {
    if c == 1 then Some(Pending)
    else if c == 2 then Some(InProgress)
    else if c == 3 then Some(Delivered)
    else if c == 4 then Some(Canceled)
    else None
  }

  /** Decoding an encoded delivery method gives it back, so the encoding is injective. */
  lemma DeliveryRoundTrip(d: DeliveryMethod, d': DeliveryMethod)
    ensures DeliveryFromCode(d.Code()) == Some(d)
    ensures d.Code() == d'.Code() ==> d == d'
  {
  }

  /** Decoding an encoded status gives it back, so the encoding is injective. */
  lemma StatusRoundTrip(s: Status, s': Status)
    ensures StatusFromCode(s.Code()) == Some(s)
    ensures s.Code() == s'.Code() ==> s == s'
  {
  }

  /**
   * An order as the backend returns it. `delivery_method` and `status` hold the
   * raw wire codes, since nothing stops the backend from sending other numbers.
   */
  datatype Order = Order(
    id_key: int,
    date: int,
    total: int,
    delivery_method: int,
    status: int,
    client_id: int,
    bill_id: int)

  /** One line of an order. */
  datatype OrderDetail = OrderDetail(
    id_key: int,
    quantity: int,
    price: Option<int>,
    order_id: int,
    product_id: int,
    product: Option<Product>)

  /**
   * The signed-in user as the authentication context exposes it. `id_key`
   * is optional because the session may not carry the client id.
   */
  datatype User = User(id_key: Option<int>, email: string, name: Option<string>)

  /** The client a review is displayed with; only the name is read. */
  datatype ReviewClient = ReviewClient(name: Option<string>)

  /**
   * A product review, with the fields the review components read and write.
   * The `Review` interface itself is imported from a types file that is not
   * part of this model; this shape follows its uses.
   */
  datatype Review = Review(
    id_key: int,
    rating: int,
    comment: string,
    product_id: int,
    client_id: int,
    client: Option<ReviewClient>)

  /** What the review form submits. */
  datatype ReviewInput = ReviewInput(rating: int, comment: string)
}

=== FILE: wrappers.dfy ===
/** Optional values: the model's stand-in for JavaScript's `undefined` / `null`. */
module Wrappers {

  datatype Option<+T> = None | Some(value: T) {

    /** The value, or `default` when absent (JavaScript's `x ?? default`). */
    function GetOr(default: T): T {
      match this
      case Some(v) => v
      case None => default
    }
  }
}
